=== FILE: README.md ===
# HTTP handler generator — a Dafny model

This project models `handlers_gen/codegen.go`, a generator that reads a Go source file and writes HTTP boilerplate for it.

The input file holds service methods and parameter structs:

- A method is part of the API when its doc comment starts with `apigen:api`. The doc comment names the method's route, e.g. `"/user/profile"`. It may also name an allowed verb, e.g. `"method": "POST"`.
- A parameter-struct field is part of the API when its struct tag carries `apivalidator:"…"` (or `json:"…"`). The `apivalidator` value holds comma-separated rules: `required=`, `min=`, `max=`, `enum=a|b`, `default=`, `paramname=`.

For every receiver type, the generator emits:

- a `ServeHTTP` switch with one case per method and a 404 default;
- one wrapper per method. Each wrapper calls the shared `checkRequestMethod` guard. Then, for each parameter whose type is a registered struct, it decodes and checks every field in a fixed order: decode, required, min, max, enum.

The model is a set of pure functions over an abstract syntax tree. The generated file is a structure of abstract statements rather than text. Go panics become `Failure` values of `Diagnostics.GenError`.

| module | what it models |
|---|---|
| `Wrappers` | `Option`, `Result`, and `MapAll`: a loop that stops at the first failing element. |
| `Text` | The string and regexp operations the generator uses: leftmost `FindString`, `[^c]*`, `[A-Z]*`, `Split` on one character, `strings.Join`, and ASCII `ToLower`. |
| `Ast` | The parts of `go/ast` the generator reads: doc comments, receivers, parameter types, struct fields and their tags. It also models `reflect.StructTag.Lookup` and `Get` over a tag that is already split into pairs. |
| `Groups` | The two tables the generator builds (`map[string][]…`), as an index ordered by first insertion. |
| `Diagnostics` | The five ways the generator panics. |
| `Selection` | `getMethodsAndStructs`. |
| `Annotations` | `getURLFromComments` and `getRequestMethod`. |
| `Rules` | The `apivalidator` rule lookups in `main`, and a token-level reference grammar to compare them against. |
| `Output` | The emitted statements, the error messages of the check templates, and the three run-time decisions the templates fix: the verb guard, the dispatcher's fallback and the enum default. |
| `Emitter` | The emission loops of `main`: receivers, cases, wrappers, parameter blocks and field checks. |
| `Properties` | Lemmas that relate the emitter's output to the annotations and tags it was built from. |

### Where the code and its documented design differ

The model follows the code in each case:

- **Auth.** There is no auth annotation and no auth guard.
- **Unknown path.** The default case answers 404 with an empty message (`http.Error` writes just a newline), not an `unknown method` JSON error.
- **Integer decode.** An integer field is read with `strconv.Atoi` and the error is discarded, so a malformed integer decodes as 0 and is not rejected.
- **`required`.** The rule is recognised only as the text `required=`, so a bare `required` token is ignored.
- **Enum default.** The default is not checked against the enum values.
- **Business call.** The wrapper never calls the business method and writes no response body.
- **Fatal errors.** A panic happens after part of the output file has been written. The model does not produce a partial file.
- **Receiver order.** It is Go map order in the source. Here it is replaced by the order of each receiver type's first API method.

## Model

| member | source | states |
|---|---|---|
| Selection.Select | handlers_gen/codegen.go:111-169 | When the pass over the declarations completes, both tables are well-formed indexes: each key appears once and has a non-empty list. |
| Selection.SelectMethodsByReceiver | handlers_gen/codegen.go:112-127 | Under every receiver type `T`, the method table holds exactly the declared functions whose doc text starts with `apigen:api` and whose receiver is `*T`, in declaration order. Value receivers contribute nothing. |
| Selection.SelectFieldsByStruct | handlers_gen/codegen.go:135-165 | Under every struct name, the field table holds exactly that struct's fields that are registered, in declaration order, across all struct declarations with that name. A registered field has a tag, no `cgen:"-"`, and an `apivalidator` or `json` key. Non-struct specs contribute nothing. |
| Selection.AddField | handlers_gen/codegen.go:152-163 | The field loop body appends a registered field to its own struct's list exactly once, even when the field has both keys. It leaves every other struct's list unchanged. |
| Selection.AddFieldsAppendsRegistered | handlers_gen/codegen.go:150-165 | The field loop over one struct appends exactly its registered fields, in order, under that struct's name only. |
| Selection.AddSpecsAppendsFields | handlers_gen/codegen.go:135-166 | The spec loop over one general declaration appends, under every name, the registered fields of the struct types with that name. |
| Selection.SelectFailsIff | handlers_gen/codegen.go:115-120 | The pass aborts exactly when some function carrying the API marker has no receiver, because its nil receiver list is dereferenced. |
| Selection.SelectedMethodQualifies | handlers_gen/codegen.go:115-125 | Every method in the table is an API method whose receiver is a pointer to its key. |
| Selection.SelectedFieldQualifies | handlers_gen/codegen.go:152-163 | Every field in the table is registered. |
| Selection.SelectWellFormed | handlers_gen/codegen.go:111-169 | Every selected method has a doc comment and every selected field has a tag. These are the facts the emitter relies on when it reads them. |
| Selection.ReceiverOrderStable | handlers_gen/codegen.go:112-127 | The receiver types found in a prefix of the declarations keep their relative order in the result for the whole file, so receiver order follows declaration order. |
| Groups.Add | handlers_gen/codegen.go:125 | Appending to a key adds the item at the end of that key's list. A new key is created after all existing keys. No other key's list changes. |
| Groups.HasIffNonEmpty | handlers_gen/codegen.go:269-273 | A key is present in a table exactly when its list is non-empty, as for a Go map whose entries are created only by `append`. |
| Ast.Lookup | handlers_gen/codegen.go:157-161 | A tag lookup finds a value exactly when some pair of the tag has the key. The value found is that of the first such pair. |
| Text.FindFrom | handlers_gen/codegen.go:284-384 | The literal `name=` search behind each rule lookup returns the leftmost occurrence at or after the start, and reports none only when there is none. |
| Text.PrefixWithout | handlers_gen/codegen.go:176 | `[^c]*` matches the longest prefix free of `c`: it stops only at a `c` or at the end. |
| Text.UpperRun | handlers_gen/codegen.go:185 | `[A-Z]*` matches the longest run of upper-case letters at the front. |
| Text.JoinSplit | handlers_gen/codegen.go:372 | Splitting the enum text on `\|` loses nothing: joining the pieces with `\|` gives the text back. |
| Text.SplitJoin | handlers_gen/codegen.go:372 | Splitting a `\|`-join of separator-free values gives the values back. |
| Text.ToLower | handlers_gen/codegen.go:284 | Lower-casing keeps the length, leaves no upper-case ASCII letter, and changes only upper-case letters, each to its lower-case counterpart. |
| Annotations.FindPathFrom | handlers_gen/codegen.go:176 | The route regexp's search finds the leftmost position where a quoted `/` path matches. |
| Annotations.PathMatchAtIff | handlers_gen/codegen.go:176 | `"/[^"]*"` matches at a position exactly the text `"p"`, where `p` starts with `/` and holds no quote. |
| Annotations.UrlFromLineLeftmost | handlers_gen/codegen.go:176-177 | The route read from a doc line is the content of that line's leftmost quoted `/` path. |
| Annotations.UrlFromLineSound | handlers_gen/codegen.go:176-177 | A route read from a line is the content of a quoted `/` path in the line, and no such path occurs earlier. |
| Annotations.UrlFromLineMissing | handlers_gen/codegen.go:176-177 | A line without a quoted `/` path aborts with `MissingRoute(line)`: the split of the empty match has no element 1. |
| Annotations.UrlFromLinesSucceedsIff | handlers_gen/codegen.go:173-180 | Reading a method's route succeeds exactly when every line of its doc comment holds a route. |
| Annotations.UrlFromLinesLast | handlers_gen/codegen.go:173-180 | The route of a method is the route of the last line of its doc comment. |
| Annotations.UrlFromLinesFirstError | handlers_gen/codegen.go:175-178 | When reading fails, it fails on the first doc line without a route. |
| Annotations.SplitVerbAnnotation | handlers_gen/codegen.go:191 | Splitting a matched `"method": "W"` on `"` gives five pieces, and piece 3 is the verb `W`. |
| Annotations.MethodMatchAtSound | handlers_gen/codegen.go:185-191 | Where the verb regexp matches, the text holds `"method": "W"` with `W` all upper-case, and piece 3 of the split match is `W`. |
| Annotations.MethodMatchAtComplete | handlers_gen/codegen.go:185-190 | Every `"method": "W"` with `W` all upper-case is matched at its position. |
| Annotations.RequestMethod | handlers_gen/codegen.go:183-195 | The verb read from a doc text consists of upper-case letters only, and may be empty. |
| Annotations.RequestMethodAbsent | handlers_gen/codegen.go:185-188 | A doc text without any verb annotation gives the empty verb. |
| Annotations.RequestMethodLeftmost | handlers_gen/codegen.go:190-191 | The verb returned is that of the leftmost verb annotation. |
| Annotations.RequestMethodDeclared | handlers_gen/codegen.go:183-195 | A non-empty verb is always one that the doc text declares. |
| Rules.RuleValueSpec | handlers_gen/codegen.go:316-319 | A rule `name` has a value exactly when the tag contains `name=`. The value is the text after the leftmost `name=`, up to the next comma or `=`. |
| Rules.RuleValueAcross | handlers_gen/codegen.go:285-288 | In a comma-joined tag, a rule is read from the first part when that part contains `name=`, and from the rest otherwise. |
| Rules.TokenContains | handlers_gen/codegen.go:308 | A single well-formed token contains `n=` for a rule name `n` exactly when it is the pair with key `n`. |
| Rules.RuleValueOfToken | handlers_gen/codegen.go:316-319 | A single well-formed token yields its own value for its own key, and no value for any other rule name. |
| Rules.RenderedRuleValue | handlers_gen/codegen.go:316-319 | For a tag written as well-formed tokens, each rule's value is that of the first pair with the rule's name. |
| Rules.ParseRendered | handlers_gen/codegen.go:284-384 | Parsing a tag rendered from well-formed tokens gives the rule set the tokens declare. |
| Rules.PairValuePermutation | handlers_gen/codegen.go:316-319 | When the keys are unique, the value declared for a rule does not depend on the order of the tokens. |
| Rules.ParseIgnoresTokenOrder | handlers_gen/codegen.go:284-384 | Reordering the well-formed, uniquely keyed tokens of a tag gives the same rule set. |
| Output.ReadMessageRoundTrip | handlers_gen/codegen.go:63-91 | Every error message reads back as the violation it reports, so different violations on the same key give different messages. |
| Output.RejectionReadsBack | handlers_gen/codegen.go:63-108 | With the max-length message corrected, every failing check answers 400 with a message that names the violated rule and its bound. |
| Output.RejectsUnlessDecode | handlers_gen/codegen.go:48-108 | Decode statements never reject. Every other check rejects, and always with status 400. |
| Output.MaxLenMessageDropsBound | handlers_gen/codegen.go:81-85 | As written, max-length checks with different bounds give the same message, and it reads back with an empty bound. |
| Output.MaxLenMessageExample | handlers_gen/codegen.go:81-85 | As written, a maximum of 10 on `login` reports `login len must be <= `. The corrected template reports `login len must be <= 10`. |
| Output.MaxLenMessageKeepsBound | handlers_gen/codegen.go:81-85 | With the corrected template, max-length checks with different bounds give different responses. |
| Output.Dispatch | handlers_gen/codegen.go:248-251 | The switch fails only with the default's 404 and an empty message. |
| Output.DispatchFirstCase | handlers_gen/codegen.go:41-43 | The switch answers 404 exactly for paths that have no case. Any other path goes to the wrapper of its first case. |
| Output.EnumOutcome | handlers_gen/codegen.go:93-108 | An empty value becomes the default, which is not checked. A non-empty value is accepted exactly when it is one of the values. An accepted value is the default or one of the values. A non-empty accepted value is returned unchanged. |
| Output.EnumRejectionListsValues | handlers_gen/codegen.go:103 | A rejected enum value is answered with 400 and a message listing all values in order, joined by `, ` in brackets. |
| Properties.ChecksInOrder | handlers_gen/codegen.go:293-394 | A field's checks follow the fixed order decode, required, min, max, enum, with at most one of each. Every check names the field and its wire name. |
| Properties.ChecksMin | handlers_gen/codegen.go:316-336 | A minimum gives a length check on a `string` field and a value check on an `int` field, with the rule's bound, and nothing else. |
| Properties.ChecksMax | handlers_gen/codegen.go:338-358 | A maximum gives a length check on a `string` field and a value check on an `int` field, with the rule's bound, and nothing else. |
| Properties.ChecksRequired | handlers_gen/codegen.go:308-314 | There is a required check exactly when the rules say required. |
| Properties.ChecksDecode | handlers_gen/codegen.go:293-305 | The first check decodes a string exactly for a `string` field, and an integer exactly for an `int` field. |
| Properties.ChecksEnum | handlers_gen/codegen.go:360-394 | There is an enum check exactly when the rules have an enum. It carries the enum split on `\|` and the default. |
| Properties.ChecksForFailure | handlers_gen/codegen.go:278-384 | The checks of a field abort exactly when the field has no name, its type is not an identifier, or it has an enum without a default. Each case has its own error. |
| Properties.FieldChecksFailure | handlers_gen/codegen.go:277-384 | For a tagged field, generation aborts exactly when the field is embedded, its type is not an identifier, or its tag has `enum=` but no `default=`. Each case has its own error. |
| Properties.FieldChecksRequired | handlers_gen/codegen.go:308-314 | A field gets a required check exactly when its tag contains `required=`. |
| Properties.FieldChecksWireName | handlers_gen/codegen.go:284-289 | Every check of a field reads the form key given by `paramname=`, or the lower-cased field name when there is none. The checks are in the fixed order. |
| Properties.FieldChecksMin | handlers_gen/codegen.go:316-336 | A tag with `min=` gives a length check on a `string` field and a value check on an `int` field. The bound is the rule's value. Any min check has that origin. |
| Properties.FieldChecksMax | handlers_gen/codegen.go:338-358 | A tag with `max=` gives a length check on a `string` field and a value check on an `int` field. The bound is the rule's value. Any max check has that origin. |
| Properties.FieldChecksDecode | handlers_gen/codegen.go:291-305 | A `string` field is decoded verbatim and an `int` field through `Atoi`. A field of any other identifier type is not decoded. |
| Properties.FieldChecksEnum | handlers_gen/codegen.go:360-394 | A field gets an enum check exactly when its tag has `enum=`. The check's values are that rule split on `\|`, and join back to it. Its default is the `default=` value. |
| Properties.FieldChecksIgnoreTokenOrder | handlers_gen/codegen.go:281-394 | Two fields that differ only in the order of their well-formed, uniquely keyed rule tokens get the same checks. |
| Properties.RegisteredParamsSpec | handlers_gen/codegen.go:266-275 | Parameter blocks are emitted exactly for the parameters whose printed type names a struct with registered fields. |
| Properties.ParamBlockForSpec | handlers_gen/codegen.go:275-396 | The block of a parameter type creates that type and has one entry per registered field of the type, in field order. Entry `i` is the checks of field `i`. |
| Properties.ParamBlockForFails | handlers_gen/codegen.go:277-394 | A parameter block aborts exactly when one of its type's registered fields cannot be checked. |
| Properties.ParamBlocksSpec | handlers_gen/codegen.go:266-396 | A wrapper has one block per registered parameter, in parameter order. Each block holds the checks of every registered field of its type. |
| Properties.UnregisteredParamHasNoBlock | handlers_gen/codegen.go:269-273 | A parameter type without registered fields gets no block. |
| Properties.EmitCasesSpec | handlers_gen/codegen.go:227-246 | The switch has one case per method, in method order, each with the method's route and name. |
| Properties.EmitCasesFails | handlers_gen/codegen.go:227-246 | Emitting the switch aborts exactly when some method's route cannot be read. |
| Properties.DispatchReachesMethod | handlers_gen/codegen.go:227-251 | At run time a path that no method declares gets 404. A declared path reaches the wrapper of the first method that declares it. |
| Properties.HandlerShape | handlers_gen/codegen.go:219-399 | A receiver's output has one case and one wrapper per method, in order. Each wrapper carries the method's name, the receiver, the verb from its doc comment, and the parameter blocks of the method's parameters. |
| Properties.GuardWithoutAnnotation | handlers_gen/codegen.go:54-61 | A method without a verb annotation accepts every verb. |
| Properties.GuardWithAnnotation | handlers_gen/codegen.go:54-61 | A method with a verb annotation rejects every other verb with 406 `bad method`. It accepts the declared verb, and any verb when the declared verb is empty. |
| Properties.EmitHandlersSpec | handlers_gen/codegen.go:219-400 | The output has one handler per receiver type, in table order, each built from that type's methods. |
| Properties.SelectedReceivers | handlers_gen/codegen.go:219 | Handlers are emitted exactly for the receiver types that have API methods, each over exactly those methods. |
| Properties.GenerateSpec | handlers_gen/codegen.go:198-404 | A successful run keeps the package name and emits, for each receiver type with API methods, the handler of exactly its API methods, in first-appearance order. |
| Properties.GenerateFailsOnReceiverless | handlers_gen/codegen.go:115-120 | A file with a receiverless API function makes the whole run abort. |
| Properties.RouteOfFails | handlers_gen/codegen.go:175-178 | Reading a method's route panics exactly when some line of its doc comment holds no quoted `/` path. |
| Properties.EmitWrapperFails | handlers_gen/codegen.go:266-396 | A wrapper aborts exactly when one of the method's parameters names a type with a registered field that cannot be checked. Types that are not parameters are never read. |
| Properties.EmitHandlerFails | handlers_gen/codegen.go:227-399 | A receiver's output aborts exactly when one of its methods lacks a route or its wrapper aborts. |
| Properties.EmitHandlersFails | handlers_gen/codegen.go:219-400 | The receiver loop aborts exactly when the output of one receiver type aborts. |
| Properties.GenerateFailsAfterSelect | handlers_gen/codegen.go:217-400 | Once the declarations are selected, the run aborts exactly when some API method on a pointer receiver lacks a route or takes a parameter whose type has a registered field (tagged `apivalidator` or `json`, not `cgen:"-"`) that cannot be checked. |
| Properties.GenerateFailsIff | handlers_gen/codegen.go:198-404 | The run aborts exactly when an API function has no receiver, or an API method on a pointer receiver has a doc line without a route, or takes a parameter whose type has a registered field (tagged `apivalidator` or `json`, not `cgen:"-"`) that is embedded, of non-identifier type, or has `enum=` without `default=`. Unregistered fields never abort the run. A struct that no API method takes as a parameter never aborts the run. |

## Left out

- File I/O and logging. Parsing the input file, creating the output file and every `log` call are left out. The model starts from a parsed file and ends at the abstract output.
- Template text. Whitespace, the package and import lines, comments and Go syntax are not modelled. The structure of the emitted statements is modelled, along with the exact text of every error message.
- Go parsing and struct-tag syntax. `Ast.Field.tag` holds the tag already split into its key/value pairs. Quoting and escaping inside struct tags are not modelled.
- Go map iteration order. The order in which the source visits receiver types and structs is replaced by first-appearance order. For structs the order does not matter: at most one struct name equals a parameter's printed type.
- Text.ToLower: lowers ASCII letters only, where `strings.ToLower` also lowers other Unicode capitals.
- Fields declared with several names (`A, B string`) contribute their first name only, as in the source.
- The partial output file that exists when the source panics is not modelled. The model returns only the error.
- Two methods of one receiver with the same route give two identical `case` labels, and an enum with a repeated value does too. Go rejects duplicate string cases, so such a generated file does not compile. The model emits these cases as written. `Output.DispatchFirstCase` and `Properties.DispatchReachesMethod` describe the switch as if it compiled.
- Properties.GenerateFailsIff: states when the run aborts, not which error it reports. When there are several causes, the one hit first depends on Go's map order in the source.
- The loop over each method's receiver list inside the case loop has no effect on the output and is left out.
- A rejected verb does not stop the wrapper: `checkRequestMethod` returns only from itself, so the field checks still run and write further errors. The model states what the guard answers, not what happens after it.
- The generated code's run-time behaviour is left out, apart from the verb guard, the dispatcher and the enum check. This covers the comparisons done by the min and max checks and `Atoi` parsing. The model keeps only which checks are emitted and what they report.
- A required check or an enum check on an `int` field does not compile in the generated file: both compare the field with `""`, and the enum check also uses string `case` labels. Both are emitted as written and not flagged.
- `api_handlers.go` is not part of this model.
- Properties.FieldChecksIgnoreTokenOrder: holds only for tags whose tokens are well formed (no stray `,` or `=` inside a token) and whose keys are unique. With a repeated key, the leftmost occurrence wins, so token order matters.
- Annotations.RequestMethod: its contract says only that the verb is upper-case. Which verb it returns is stated by `RequestMethodAbsent`, `RequestMethodLeftmost` and `RequestMethodDeclared`.

## Findings

| source | as written | input that shows it | evidently intended | confidence | as-written member | corrected member |
|---|---|---|---|---|---|---|
| handlers_gen/codegen.go:81-85 | The max-length template prints `{{.Min}}` in its message. The call site at 345-349 sets only `Max`, so the bound is printed as the empty string. | A `string` field `Login` with tag `apivalidator:"max=10"` and a 12-character value gets `login len must be <= `. | `login len must be <= 10`: the message carries the maximum, as the other three bound templates do. | not executed | Output.MaxLenMessageDropsBound | Output.MaxLenMessageKeepsBound |

=== FILE: annotations.dfy ===
/**
 Comment annotations of an API method: the route path, read from every raw
 comment line with the regexp `"/[^"]*"`, and the allowed HTTP verb, read from
 the normalised doc text with the regexp `"method": "[A-Z]*"`. Both follow the
 generator's literal recipe: leftmost match, then `Split` on `"` and a fixed
 index.
 */
module Annotations {
  import opened Wrappers
  import opened Text
  import opened Ast
  import opened Diagnostics

  // ---------------------------------------------------------------------
  // Route path

  /** A quoted route `"p"` at index `i`: `p` starts with `/` and holds no quote. */
  predicate RouteAt(line: string, i: nat, p: string) {
    && |p| > 0 && p[0] == '/' && '"' !in p
    && OccursAt(line, "\"" + p + "\"", i)
  }

  /** The text the regexp `"/[^"]*"` matches when started at index `i`, if it matches there. */
  function PathMatchAt(line: string, i: nat): Option<string> {
    if i + 1 < |line| && line[i] == '"' && line[i + 1] == '/' then
      var body := PrefixWithout(line[i + 2..], '"');
      var close := i + 2 + |body|;
      if close < |line| then Some(line[i..close + 1]) else None
    else None
  }

  /** The leftmost index at or after `i` where the route regexp matches, with the matched text. */
  function FindPathFrom(line: string, i: nat): (r: Option<(nat, string)>)
    ensures r.Some? ==> i <= r.value.0 && PathMatchAt(line, r.value.0) == Some(r.value.1)
    ensures r.Some? ==> forall j :: i <= j < r.value.0 ==> PathMatchAt(line, j).None?
    ensures r.None? ==> forall j :: i <= j ==> PathMatchAt(line, j).None?
    decreases |line| - i
  {
    if i >= |line| then None
    else
      match PathMatchAt(line, i)
      case Some(m) => Some((i, m))
      case None => FindPathFrom(line, i + 1)
  }

  /** `regexp.FindString`: the leftmost match, or the empty string when there is none. */
  function FindPath(line: string): string {
    match FindPathFrom(line, 0)
    case None => ""
    case Some((_, m)) => m
  }

  /** One iteration of the comment loop: piece 1 of the match split on quotes; an out-of-range index aborts. */
  function UrlFromLine(line: string): Result<string, GenError> {
    var parts := Split(FindPath(line), '"');
    if |parts| < 2 then Failure(MissingRoute(line)) else Success(parts[1])
  }

  /** The comment loop: each line overwrites the path, and the first line without a route aborts. */
  function UrlFromLines(lines: seq<string>, url: string): Result<string, GenError> {
    LastOf(lines, url, UrlFromLine)
  }

  /** `getURLFromComments`. */
  function UrlFromComments(doc: DocComment): Result<string, GenError> {
    UrlFromLines(doc.lines, "")
  }

  /** The match at `i` is a quoted route, and its inside is that route. */
  lemma PathMatchAtSound(line: string, i: nat)
    requires PathMatchAt(line, i).Some?
    ensures var m := PathMatchAt(line, i).value;
            |m| >= 2 && RouteAt(line, i, m[1..|m| - 1]) && m == "\"" + m[1..|m| - 1] + "\""
  {
    var m := PathMatchAt(line, i).value;
    var rest := line[i + 2..];
    var body := PrefixWithout(rest, '"');
    var close := i + 2 + |body|;
    assert close < |line| && m == line[i..close + 1];
    assert rest[|body|] == line[close] == '"';
    assert body == rest[..|body|] == line[i + 2..close];
    SliceOfSlice(line, i, close + 1, 1, |m| - 1);
    var p := m[1..|m| - 1];
    assert p == line[i + 1..close] == [line[i + 1]] + line[i + 2..close];
    assert p == ['/'] + body && '"' !in p;
    Bracketed(m, '"');
  }

  /** A quoted route at `i` is exactly what the regexp matches there. */
  lemma PathMatchAtComplete(line: string, i: nat, p: string)
    requires RouteAt(line, i, p)
    ensures PathMatchAt(line, i) == Some("\"" + p + "\"")
  {
    var q := "\"" + p + "\"";
    assert line[i..i + |q|] == q;
    assert line[i] == '"' && line[i + 1] == '/';
    var rest := line[i + |q|..];
    assert line[i + 2..] == p[1..] + ['"'] + rest;
    PrefixWithoutBeforeSeparator(p[1..], '"', rest);
  }

  /** Splitting a quoted route on quotes gives the route as piece 1. */
  lemma SplitQuoted(p: string)
    requires '"' !in p
    ensures Split("\"" + p + "\"", '"') == ["", p, ""]
  {
    assert "\"" + p + "\"" == "" + ['"'] + (p + ['"'] + "");
    SplitAtSeparator("", '"', p + ['"'] + "");
    SplitAtSeparator(p, '"', "");
    SplitWithoutSeparator(p, '"');
  }

  /** Where no quoted route starts, the route regexp does not match. */
  lemma NoRouteNoMatch(line: string, j: nat)
    requires forall q :: !RouteAt(line, j, q)
    ensures PathMatchAt(line, j).None?
  {
    if PathMatchAt(line, j).Some? {
      PathMatchAtSound(line, j);
    }
  }

  /** The first index where the regexp matches gives the found text. */
  lemma FindPathFromAt(line: string, i: nat)
    requires PathMatchAt(line, i).Some?
    requires forall j: nat :: j < i ==> PathMatchAt(line, j).None?
    ensures FindPath(line) == PathMatchAt(line, i).value
  {
    var r := FindPathFrom(line, 0);
    assert r.Some? && r.value.0 == i;
  }

  /** The leftmost quoted route on a line is what the route regexp finds. */
  lemma FindPathLeftmost(line: string, i: nat, p: string)
    requires RouteAt(line, i, p)
    requires forall j: nat, q :: j < i ==> !RouteAt(line, j, q)
    ensures FindPath(line) == "\"" + p + "\""
  {
    PathMatchAtComplete(line, i, p);
    forall j: nat | j < i
      ensures PathMatchAt(line, j).None?
    {
      NoRouteNoMatch(line, j);
    }
    FindPathFromAt(line, i);
  }

  /** A line's route is the leftmost quoted route on it. */
  lemma UrlFromLineLeftmost(line: string, i: nat, p: string)
    requires RouteAt(line, i, p)
    requires forall j: nat, q :: j < i ==> !RouteAt(line, j, q)
    ensures UrlFromLine(line) == Success(p)
  {
    FindPathLeftmost(line, i, p);
    SplitQuoted(p);
  }

  /** With no quoted route on the line the route regexp finds nothing. */
  lemma FindPathAbsent(line: string)
    requires forall j: nat, q :: !RouteAt(line, j, q)
    ensures FindPath(line) == ""
  {
    forall j: nat
      ensures PathMatchAt(line, j).None?
    {
      NoRouteNoMatch(line, j);
    }
  }

  /** A line with no quoted route aborts generation: `Split("")` has no piece 1. */
  lemma UrlFromLineMissing(line: string)
    requires forall j: nat, q :: !RouteAt(line, j, q)
    ensures UrlFromLine(line) == Failure(MissingRoute(line))
  {
    FindPathAbsent(line);
    assert Split("", '"') == [""];
  }

  /** The regexp matches at `i` exactly when a quoted route starts there, and the match is that route in quotes. */
  lemma PathMatchAtIff(line: string, i: nat, p: string)
    ensures PathMatchAt(line, i) == Some("\"" + p + "\"") <==> RouteAt(line, i, p)
  {
    if RouteAt(line, i, p) {
      PathMatchAtComplete(line, i, p);
    }
    if PathMatchAt(line, i) == Some("\"" + p + "\"") {
      PathMatchAtSound(line, i);
      var m := "\"" + p + "\"";
      assert m[1..|m| - 1] == p;
    }
  }

  /** A line's route, when there is one, is a quoted route on the line with none further left. */
  lemma UrlFromLineSound(line: string)
    requires UrlFromLine(line).Success?
    ensures exists i: nat :: RouteAt(line, i, UrlFromLine(line).value)
                             && forall j: nat, q :: j < i ==> !RouteAt(line, j, q)
  {
    match FindPathFrom(line, 0) {
      case None =>
      case Some((i, m)) =>
        PathMatchAtSound(line, i);
        var p := m[1..|m| - 1];
        SplitQuoted(p);
        assert UrlFromLine(line).value == p;
        forall j: nat, q | j < i
          ensures !RouteAt(line, j, q)
        {
          PathMatchAtIff(line, j, q);
        }
    }
  }

  /** Every comment line holds a route. */
  predicate AllRouted(lines: seq<string>) {
    forall k :: 0 <= k < |lines| ==> UrlFromLine(lines[k]).Success?
  }

  lemma AllRoutedCons(lines: seq<string>)
    requires |lines| > 0
    ensures AllRouted(lines) <==> UrlFromLine(lines[0]).Success? && AllRouted(lines[1..])
  {
    if UrlFromLine(lines[0]).Success? && AllRouted(lines[1..]) {
      forall k | 0 <= k < |lines|
        ensures UrlFromLine(lines[k]).Success?
      {
        if k > 0 {
          assert lines[k] == lines[1..][k - 1];
        }
      }
    }
  }

  /** The comment loop succeeds exactly when every line holds a route. */
  lemma {:induction false} UrlFromLinesSucceedsIff(lines: seq<string>, url: string)
    ensures UrlFromLines(lines, url).Success? <==> AllRouted(lines)
    decreases |lines|
  {
    if |lines| > 0 {
      AllRoutedCons(lines);
      match UrlFromLine(lines[0]) {
        case Failure(_) =>
        case Success(next) =>
          UrlFromLinesSucceedsIff(lines[1..], next);
      }
    }
  }

  /**
   The comment-line loop over any per-line step: each step overwrites the
   value, and the first failing step aborts the loop.
   */
  function LastOf(lines: seq<string>, url: string, step: string -> Result<string, GenError>): Result<string, GenError>
    decreases |lines|
  {
    if |lines| == 0 then Success(url)
    else
      var next :- step(lines[0]);
      LastOf(lines[1..], next, step)
  }

  /** A successful loop yields the last step's value (the starting value for no lines). */
  lemma {:induction false} LastOfLast(lines: seq<string>, url: string, step: string -> Result<string, GenError>)
    requires LastOf(lines, url, step).Success?
    ensures |lines| > 0 ==> step(lines[|lines| - 1]).Success?
    ensures LastOf(lines, url, step).value == if |lines| == 0 then url else step(lines[|lines| - 1]).value
    decreases |lines|
  {
    if |lines| > 0 {
      var next := step(lines[0]).value;
      LastOfLast(lines[1..], next, step);
      if |lines| > 1 {
        assert lines[1..][|lines| - 2] == lines[|lines| - 1];
      }
    }
  }

  /** A successful comment loop yields the last line's route (the starting path for no lines). */
  lemma UrlFromLinesLast(lines: seq<string>, url: string)
    requires UrlFromLines(lines, url).Success?
    ensures |lines| > 0 ==> UrlFromLine(lines[|lines| - 1]).Success?
    ensures UrlFromLines(lines, url).value == if |lines| == 0 then url else UrlFromLine(lines[|lines| - 1]).value
  {
    LastOfLast(lines, url, UrlFromLine);
  }

  /** The loop fails with the error of the first failing step. */
  lemma {:induction false} LastOfFirstError(lines: seq<string>, url: string, step: string -> Result<string, GenError>, k: nat)
    requires k < |lines| && step(lines[k]).Failure?
    requires forall k' :: 0 <= k' < k ==> step(lines[k']).Success?
    ensures LastOf(lines, url, step) == Failure(step(lines[k]).error)
    decreases |lines|
  {
    if k > 0 {
      var next := step(lines[0]).value;
      assert forall k' :: 0 <= k' < k - 1 ==> lines[1..][k'] == lines[k' + 1];
      LastOfFirstError(lines[1..], next, step, k - 1);
    }
  }

  /** When the comment loop fails, it fails with the error of the first line that has no route. */
  lemma UrlFromLinesFirstError(lines: seq<string>, url: string, k: nat)
    requires k < |lines| && UrlFromLine(lines[k]).Failure?
    requires forall k' :: 0 <= k' < k ==> UrlFromLine(lines[k']).Success?
    ensures UrlFromLines(lines, url) == Failure(UrlFromLine(lines[k]).error)
  {
    LastOfFirstError(lines, url, UrlFromLine, k);
  }

  // ---------------------------------------------------------------------
  // Allowed verb

  /** The literal part of the verb annotation, `"method": "`. */
  const MethodKey := "\"method\": \""

  predicate AllUpper(w: string) {
    forall k :: 0 <= k < |w| ==> IsUpper(w[k])
  }

  /** A verb annotation `"method": "W"` at index `i`, with `W` made of capitals. */
  predicate VerbAt(text: string, i: nat, w: string) {
    AllUpper(w) && OccursAt(text, MethodKey + w + "\"", i)
  }

  /** The text the regexp `"method": "[A-Z]*"` matches when started at index `i`, if it matches there. */
  function MethodMatchAt(text: string, i: nat): Option<string> {
    if OccursAt(text, MethodKey, i) then
      var w := UpperRun(text[i + |MethodKey|..]);
      var close := i + |MethodKey| + |w|;
      if close < |text| && text[close] == '"' then Some(text[i..close + 1]) else None
    else None
  }

  /** The leftmost index at or after `i` where the verb regexp matches, with the matched text. */
  function FindMethodFrom(text: string, i: nat): (r: Option<(nat, string)>)
    ensures r.Some? ==> i <= r.value.0 && MethodMatchAt(text, r.value.0) == Some(r.value.1)
    ensures r.Some? ==> forall j :: i <= j < r.value.0 ==> MethodMatchAt(text, j).None?
    ensures r.None? ==> forall j :: i <= j ==> MethodMatchAt(text, j).None?
    decreases |text| - i
  {
    if i >= |text| then None
    else
      match MethodMatchAt(text, i)
      case Some(m) => Some((i, m))
      case None => FindMethodFrom(text, i + 1)
  }

  /** A separator-free piece followed by the separator splits off as the first piece. */
  lemma SplitPiece(a: string, rest: string)
    requires '"' !in a
    ensures Split(a + ['"'] + rest, '"') == [a] + Split(rest, '"')
  {
    SplitAtSeparator(a, '"', rest);
    SplitWithoutSeparator(a, '"');
  }

  /** Splitting four quotes around three quote-free pieces. */
  lemma SplitFourQuotes(a: string, b: string, w: string)
    requires '"' !in a && '"' !in b && '"' !in w
    ensures Split(['"'] + (a + (['"'] + (b + (['"'] + (w + ['"']))))), '"') == ["", a, b, w, ""]
  {
    var x3 := w + ['"'];
    assert Split("", '"') == [""];
    assert x3 == w + ['"'] + "";
    SplitPiece(w, "");
    var x2 := b + (['"'] + x3);
    assert x2 == b + ['"'] + x3;
    SplitPiece(b, x3);
    var x1 := a + (['"'] + x2);
    assert x1 == a + ['"'] + x2;
    SplitPiece(a, x2);
    var x0 := ['"'] + x1;
    assert x0 == "" + ['"'] + x1;
    SplitPiece("", x1);
  }

  /** A run of capitals holds no quote. */
  lemma UpperHasNoQuote(w: string)
    requires AllUpper(w)
    ensures '"' !in w
  {
  }

  /** Splitting a verb annotation on quotes gives five pieces with the verb at index 3. */
  lemma SplitVerbAnnotation(w: string)
    requires AllUpper(w)
    ensures Split(MethodKey + w + "\"", '"') == ["", "method", ": ", w, ""]
  {
    UpperHasNoQuote(w);
    SplitFourQuotes("method", ": ", w);
    assert MethodKey + w + "\"" == ['"'] + ("method" + (['"'] + (": " + (['"'] + (w + ['"'])))));
  }

  /** The match at `i` is a verb annotation, and it splits on quotes into five pieces with the verb at index 3. */
  lemma MethodMatchAtSound(text: string, i: nat)
    requires MethodMatchAt(text, i).Some?
    ensures var w := UpperRun(text[i + |MethodKey|..]);
            && VerbAt(text, i, w)
            && MethodMatchAt(text, i) == Some(MethodKey + w + "\"")
            && Split(MethodKey + w + "\"", '"') == ["", "method", ": ", w, ""]
  {
    var w := UpperRun(text[i + |MethodKey|..]);
    var close := i + |MethodKey| + |w|;
    assert text[i..close + 1] == MethodKey + w + "\"";
    SplitVerbAnnotation(w);
  }

  /** A verb annotation at `i` is exactly what the regexp matches there. */
  lemma MethodMatchAtComplete(text: string, i: nat, w: string)
    requires VerbAt(text, i, w)
    ensures MethodMatchAt(text, i) == Some(MethodKey + w + "\"")
  {
    var q := MethodKey + w + "\"";
    assert text[i..i + |q|] == q;
    assert text[i..i + |MethodKey|] == q[..|MethodKey|] == MethodKey;
    var rest := text[i + |q|..];
    assert text[i + |MethodKey|..] == text[i..i + |q|][|MethodKey|..] + rest;
    assert text[i + |MethodKey|..] == w + ("\"" + rest);
    UpperRunStops(w, "\"" + rest);
  }

  /**
   `getRequestMethod`: the empty string when the doc text has no verb
   annotation, otherwise piece 3 of the leftmost annotation split on quotes.
   */
  function RequestMethod(text: string): (verb: string)
    ensures AllUpper(verb)
  {
    match FindMethodFrom(text, 0)
    case None => ""
    case Some((i, m)) =>
      MethodMatchAtSound(text, i);
      Split(m, '"')[3]
  }

  /** With no verb annotation in the doc text, any verb is allowed. */
  lemma RequestMethodAbsent(text: string)
    requires forall j: nat, w :: !VerbAt(text, j, w)
    ensures RequestMethod(text) == ""
  {
    forall j: nat
      ensures MethodMatchAt(text, j).None?
    {
      if MethodMatchAt(text, j).Some? {
        MethodMatchAtSound(text, j);
      }
    }
  }

  /** The allowed verb is the one in the leftmost verb annotation. */
  lemma RequestMethodLeftmost(text: string, i: nat, w: string)
    requires VerbAt(text, i, w)
    requires forall j: nat, v :: j < i ==> !VerbAt(text, j, v)
    ensures RequestMethod(text) == w
  {
    MethodMatchAtComplete(text, i, w);
    forall j: nat | j < i
      ensures MethodMatchAt(text, j).None?
    {
      if MethodMatchAt(text, j).Some? {
        MethodMatchAtSound(text, j);
      }
    }
    SplitVerbAnnotation(w);
  }

  /** A non-empty allowed verb was declared in the doc text. */
  lemma RequestMethodDeclared(text: string)
    requires RequestMethod(text) != ""
    ensures exists i: nat :: VerbAt(text, i, RequestMethod(text))
  {
    var r := FindMethodFrom(text, 0);
    MethodMatchAtSound(text, r.value.0);
  }
}

=== FILE: ast.dfy ===
/**
 The declarations the syntax frontend hands to the generator: top-level
 function declarations with their doc comments and receivers, and type
 declarations with their fields and struct tags. Only the parts the generator
 inspects are kept.
 */
module Ast {
  import opened Wrappers

  /**
   A doc comment as the frontend supplies it: `lines` is the raw text of each
   comment in the group (`// ...` markers included) and `text` is the
   normalised text of the whole group (markers stripped, lines joined).
   The two fields are independent: nothing ties `text` to `lines`, since the
   normalisation that derives one from the other is not modelled. The route
   is read from `lines` and the verb from `text`, as in the generator.
   */
  datatype DocComment = DocComment(lines: seq<string>, text: string)

  /** The receiver of a function declaration; a plain function has none. */
  datatype Receiver =
    | NoReceiver
    | ValueReceiver(typeName: string)
    | PointerReceiver(typeName: string)

  /**
   A function declaration. `params` holds the printed form of each parameter
   type, as `fmt.Sprintf("%s", param.Type)` renders it: the bare name for a
   named type, something else for pointers and qualified types.
   */
  datatype FuncDecl = FuncDecl(doc: Option<DocComment>, recv: Receiver, name: string, params: seq<string>)

  /** A field type: a plain identifier such as `string` or `int`, or any other type expression. */
  datatype FieldType = Ident(name: string) | Composite

  /** One `key:"value"` pair of a struct tag. */
  datatype TagEntry = TagEntry(key: string, value: string)

  /**
   A struct field. `names` is empty for an embedded field and lists every name
   of a grouped declaration such as `A, B string`; `tag` is the struct tag,
   already split into its pairs, if the field has one.
   */
  datatype Field = Field(names: seq<string>, typ: FieldType, tag: Option<seq<TagEntry>>)

  /** A spec of a general declaration: a struct type, another type, or an import/var/const spec. */
  datatype Spec =
    | StructSpec(name: string, fields: seq<Field>)
    | OtherTypeSpec(name: string)
    | ValueSpec

  /** A top-level declaration. */
  datatype Decl = Func(func: FuncDecl) | Gen(specs: seq<Spec>)

  /** A parsed source file: its package name and its declarations in order. */
  datatype File = File(pkg: string, decls: seq<Decl>)

  /** `CommentGroup.Text()`: the empty string for a missing doc comment. */
  function DocText(doc: Option<DocComment>): string {
    match doc
    case None => ""
    case Some(d) => d.text
  }

  /** `StructTag.Lookup`: the value of the first pair with the key, if any. */
  function Lookup(tag: seq<TagEntry>, key: string): (r: Option<string>)
    ensures r.Some? <==> exists i :: 0 <= i < |tag| && tag[i].key == key
    ensures r.Some? ==> exists i :: 0 <= i < |tag| && tag[i] == TagEntry(key, r.value)
                                    && forall j :: 0 <= j < i ==> tag[j].key != key
  {
    if |tag| == 0 then None
    else if tag[0].key == key then Some(tag[0].value)
    else
      var r := Lookup(tag[1..], key);
      if r.Some? then FirstPairPastHead(tag, key, r.value); r else r
  }

  /** A first pair with the key in the tail is the first one in the whole tag when the head has another key. */
  lemma FirstPairPastHead(tag: seq<TagEntry>, key: string, v: string)
    requires |tag| > 0 && tag[0].key != key
    requires exists i :: 0 <= i < |tag[1..]| && tag[1..][i] == TagEntry(key, v)
                         && forall j :: 0 <= j < i ==> tag[1..][j].key != key
    ensures exists i :: 0 <= i < |tag| && tag[i] == TagEntry(key, v)
                        && forall j :: 0 <= j < i ==> tag[j].key != key
  {
    var i :| 0 <= i < |tag[1..]| && tag[1..][i] == TagEntry(key, v)
             && forall j :: 0 <= j < i ==> tag[1..][j].key != key;
    assert tag[i + 1] == TagEntry(key, v);
    forall j | 0 <= j < i + 1
      ensures tag[j].key != key
    {
      if j > 0 {
        assert tag[j] == tag[1..][j - 1];
      }
    }
  }

  /** `StructTag.Get`: the value of the key, or the empty string when it is absent. */
  function Get(tag: seq<TagEntry>, key: string): string {
    Lookup(tag, key).GetOr("")
  }
}

=== FILE: diagnostics.dfy ===
/**
 The ways a generation run aborts. Each one is a runtime panic of the
 generator (a nil dereference, an index out of range or a failed type
 assertion); any of them ends the whole run.
 */
module Diagnostics {

  datatype GenError =
      /** A function with the API marker but no receiver: the receiver list is dereferenced. */
    | ReceiverlessApiFunction(name: string)
      /** A doc comment line of an API method holding no quoted `/...` path. */
    | MissingRoute(line: string)
      /** An embedded (unnamed) field in a parameter struct. */
    | UnnamedField(structName: string)
      /** A parameter-struct field whose type is not a plain identifier. */
    | UnsupportedFieldType(field: string)
      /** An `enum=` rule without a `default=` rule. */
    | EnumWithoutDefault(field: string)
}

=== FILE: emitter.dfy ===
/**
 The emission pass of the generator: for every receiver type, in the order
 of the method table, the `ServeHTTP` switch (one case per method, read from
 the doc comment's route) and one wrapper per method (the verb guard, then a
 block for each parameter whose type has registered fields, holding each
 field's checks).
 */
module Emitter {
  import opened Wrappers
  import opened Text
  import opened Ast
  import opened Diagnostics
  import opened Rules
  import opened Output
  import Annotations
  import Groups
  import Selection

  // ---------------------------------------------------------------------
  // One field

  /** The form key of a field: the `paramname=` rule, else the lower-cased field name. */
  function WireName(fieldName: string, rules: RuleSet): string {
    match rules.paramName
    case Some(p) => p
    case None => ToLower(fieldName)
  }

  /** The decode statement for the field's type; only `string` and `int` fields are read. */
  function DecodeChecks(kind: string, name: string, param: string): seq<Check> {
    if kind == "string" then [DecodeString(name, param)]
    else if kind == "int" then [DecodeInt(name, param)]
    else []
  }

  function RequiredChecks(rules: RuleSet, name: string, param: string): seq<Check> {
    if rules.required then [Required(name, param)] else []
  }

  /** A minimum is a length for a `string` field and a value for an `int` field; other types get none. */
  function MinChecks(kind: string, rules: RuleSet, name: string, param: string): seq<Check> {
    match rules.min
    case None => []
    case Some(b) =>
      if kind == "string" then [MinLen(name, param, b)]
      else if kind == "int" then [MinNum(name, param, b)]
      else []
  }

  /** A maximum is a length for a `string` field and a value for an `int` field; other types get none. */
  function MaxChecks(kind: string, rules: RuleSet, name: string, param: string): seq<Check> {
    match rules.max
    case None => []
    case Some(b) =>
      if kind == "string" then [MaxLen(name, param, b)]
      else if kind == "int" then [MaxNum(name, param, b)]
      else []
  }

  /** The enum switch, with its values split on `|`; a missing `default=` rule aborts (the index panic). */
  function EnumChecks(rules: RuleSet, name: string, param: string): Result<seq<Check>, GenError> {
    match rules.enumValues
    case None => Success([])
    case Some(raw) =>
      match rules.dflt {
        case None => Failure(EnumWithoutDefault(name))
        case Some(d) => Success([Enum(name, param, Split(raw, '|'), d)])
      }
  }

  /**
   The checks of a field with the given names, type and rules: the first name
   is the field (an embedded field has none and aborts), a non-identifier type
   aborts, and the checks follow the fixed order.
   */
  function ChecksFor(structName: string, names: seq<string>, typ: FieldType, rules: RuleSet): Result<seq<Check>, GenError> {
    if |names| == 0 then Failure(UnnamedField(structName))
    else
      var name := names[0];
      var param := WireName(name, rules);
      match typ
      case Composite => Failure(UnsupportedFieldType(name))
      case Ident(kind) =>
        var enumChecks :- EnumChecks(rules, name, param);
        Success(DecodeChecks(kind, name, param) + RequiredChecks(rules, name, param)
                + MinChecks(kind, rules, name, param) + MaxChecks(kind, rules, name, param) + enumChecks)
  }

  /** The `apivalidator` value of a field's tag; the empty string when the field only has a json key. */
  function ValidatorTag(f: Field): string
    requires f.tag.Some?
  {
    Ast.Get(f.tag.value, "apivalidator")
  }

  /** The checks emitted for one registered field of struct `structName`. */
  function FieldChecks(structName: string, f: Field): Result<seq<Check>, GenError>
    requires f.tag.Some?
  {
    ChecksFor(structName, f.names, f.typ, ParseRules(ValidatorTag(f)))
  }

  // ---------------------------------------------------------------------
  // Blocks, wrappers, cases

  predicate AllTagged(fields: seq<Field>) {
    forall i :: 0 <= i < |fields| ==> fields[i].tag.Some?
  }

  /** The field loop of one parameter block: the fields' checks in order, or the first field's abort. */
  function FieldsChecks(structName: string, fields: seq<Field>): Result<seq<seq<Check>>, GenError>
    requires AllTagged(fields)
  {
    MapAll(fields, (f: Field) requires f.tag.Some? => FieldChecks(structName, f))
  }

  /** Every field of every struct in the table has a tag. */
  ghost predicate TablesTagged(structs: Groups.Index<Field>) {
    forall s :: AllTagged(Groups.Get(structs, s))
  }

  /** The parameter types that have registered fields, in parameter order. */
  function RegisteredParams(params: seq<string>, structs: Groups.Index<Field>): seq<string>
    decreases |params|
  {
    if |params| == 0 then []
    else (if Groups.Has(structs, params[0]) then [params[0]] else []) + RegisteredParams(params[1..], structs)
  }

  /** `output := &T{}` and the checks of each registered field of `T`. */
  function ParamBlockFor(typeName: string, structs: Groups.Index<Field>): Result<ParamBlock, GenError>
    requires TablesTagged(structs)
  {
    var fields :- FieldsChecks(typeName, Groups.Get(structs, typeName));
    Success(ParamBlock(typeName, fields))
  }

  /**
   The parameter loop of a wrapper: a block for each parameter whose printed
   type names a struct with registered fields, and nothing for the others.
   */
  function ParamBlocks(params: seq<string>, structs: Groups.Index<Field>): Result<seq<ParamBlock>, GenError>
    requires TablesTagged(structs)
  {
    MapAll(RegisteredParams(params, structs), (p: string) requires TablesTagged(structs) => ParamBlockFor(p, structs))
  }

  /** One wrapper: the verb from the doc text, then the parameter blocks. */
  function EmitWrapper(recv: string, m: FuncDecl, structs: Groups.Index<Field>): Result<Wrapper, GenError>
    requires TablesTagged(structs)
  {
    var blocks :- ParamBlocks(m.params, structs);
    Success(Wrapper(recv, m.name, Annotations.RequestMethod(DocText(m.doc)), blocks))
  }

  /** The wrapper loop of one receiver type. */
  function EmitWrappers(recv: string, ms: seq<FuncDecl>, structs: Groups.Index<Field>): Result<seq<Wrapper>, GenError>
    requires TablesTagged(structs)
  {
    MapAll(ms, (m: FuncDecl) requires TablesTagged(structs) => EmitWrapper(recv, m, structs))
  }

  predicate AllDocumented(ms: seq<FuncDecl>) {
    forall k :: 0 <= k < |ms| ==> ms[k].doc.Some?
  }

  /** The route of a method read from its doc comment. */
  function RouteOf(m: FuncDecl): Result<string, GenError>
    requires m.doc.Some?
  {
    Annotations.UrlFromComments(m.doc.value)
  }

  /** `case "path": srv.MWrapper(w, r)` for one method; a doc line without a route aborts. */
  function CaseFor(m: FuncDecl): Result<Case, GenError>
    requires m.doc.Some?
  {
    var path :- RouteOf(m);
    Success(Case(path, m.name))
  }

  /** The case loop of one `ServeHTTP` switch: one case per method, in order. */
  function EmitCases(ms: seq<FuncDecl>): Result<seq<Case>, GenError>
    requires AllDocumented(ms)
  {
    MapAll(ms, (m: FuncDecl) requires m.doc.Some? => CaseFor(m))
  }

  /** Everything for one receiver type: all the cases first (each reading a route), then the wrappers. */
  function EmitHandler(recv: string, ms: seq<FuncDecl>, structs: Groups.Index<Field>): Result<Handler, GenError>
    requires AllDocumented(ms) && TablesTagged(structs)
  {
    var cases :- EmitCases(ms);
    var wrappers :- EmitWrappers(recv, ms, structs);
    Success(Handler(recv, cases, wrappers))
  }

  /** Every method in the table has a doc comment. */
  ghost predicate TablesDocumented(methods: Groups.Index<FuncDecl>) {
    forall t :: AllDocumented(Groups.Get(methods, t))
  }

  /** The receiver loop over the given receiver types. */
  function EmitHandlers(recvs: seq<string>, methods: Groups.Index<FuncDecl>, structs: Groups.Index<Field>): Result<seq<Handler>, GenError>
    requires TablesDocumented(methods) && TablesTagged(structs)
  {
    MapAll(recvs, (r: string) requires TablesDocumented(methods) && TablesTagged(structs) =>
                    EmitHandler(r, Groups.Get(methods, r), structs))
  }

  /** A well-formed selection has documented methods and tagged fields. */
  lemma WellFormedTables(reg: Selection.Registry)
    requires Selection.WellFormed(reg)
    ensures TablesDocumented(reg.methods) && TablesTagged(reg.structs)
  {
    forall t
      ensures AllDocumented(Groups.Get(reg.methods, t))
    {
      var ms := Groups.Get(reg.methods, t);
      forall k | 0 <= k < |ms|
        ensures ms[k].doc.Some?
      {
        assert ms[k] in ms;
      }
    }
    forall s
      ensures AllTagged(Groups.Get(reg.structs, s))
    {
      var fs := Groups.Get(reg.structs, s);
      forall i | 0 <= i < |fs|
        ensures fs[i].tag.Some?
      {
        assert fs[i] in fs;
      }
    }
  }

  /** The whole generator on one parsed file: selection, then one handler per receiver type in table order. */
  function Generate(file: File): Result<Unit, GenError> {
    var reg :- Selection.Select(file.decls);
    Selection.SelectWellFormed(file.decls);
    WellFormedTables(reg);
    var handlers :- EmitHandlers(Groups.Keys(reg.methods), reg.methods, reg.structs);
    Success(Unit(file.pkg, handlers))
  }
}

=== FILE: groups.dfy ===
/**
 An insertion-ordered index from type names to lists, the deterministic
 stand-in for the generator's `map[string][]T` tables: appending to a key
 extends its list, and keys keep the order in which they were first added.
 */
module Groups {

  datatype Group<T> = Group(key: string, items: seq<T>)

  type Index<T> = seq<Group<T>>

  /** The keys of an index, in first-insertion order. */
  function Keys<T>(ix: Index<T>): seq<string> {
    if |ix| == 0 then [] else [ix[0].key] + Keys(ix[1..])
  }

  /** Keys are distinct and no key maps to an empty list. */
  predicate Valid<T>(ix: Index<T>) {
    |ix| == 0 || (ix[0].items != [] && ix[0].key !in Keys(ix[1..]) && Valid(ix[1..]))
  }

  /** The list under a key; the empty list for a missing key, as a Go map read gives. */
  function Get<T>(ix: Index<T>, k: string): seq<T> {
    if |ix| == 0 then []
    else if ix[0].key == k then ix[0].items
    else Get(ix[1..], k)
  }

  /** Whether the key is present, like `_, ok := m[k]`. */
  predicate Has<T>(ix: Index<T>, k: string) {
    k in Keys(ix)
  }

  /** `m[k] = append(m[k], x)`. */
  function Add<T>(ix: Index<T>, k: string, x: T): (r: Index<T>)
    requires Valid(ix)
    ensures Valid(r)
    ensures Get(r, k) == Get(ix, k) + [x]
    ensures forall k' :: k' != k ==> Get(r, k') == Get(ix, k')
    ensures Keys(r) == if k in Keys(ix) then Keys(ix) else Keys(ix) + [k]
  {
    if |ix| == 0 then [Group(k, [x])]
    else if ix[0].key == k then
      assert Get(ix, k) == ix[0].items;
      var r := [Group(k, ix[0].items + [x])] + ix[1..];
      assert r[1..] == ix[1..];
      r
    else
      var rest := Add(ix[1..], k, x);
      assert Keys(ix) == [ix[0].key] + Keys(ix[1..]);
      assert Keys([ix[0]] + rest) == [ix[0].key] + Keys(rest);
      [ix[0]] + rest
  }

  /** In a valid index a key is present exactly when its list is non-empty. */
  lemma {:induction false} HasIffNonEmpty<T>(ix: Index<T>, k: string)
    requires Valid(ix)
    ensures Has(ix, k) <==> Get(ix, k) != []
  {
    if |ix| > 0 {
      assert Keys(ix) == [ix[0].key] + Keys(ix[1..]);
      HasIffNonEmpty(ix[1..], k);
    }
  }
}

=== FILE: output.dfy ===
/**
 The generated handler file as a structure of abstract statements: one
 `ServeHTTP` switch and one wrapper per method for each receiver type, and in
 each wrapper the verb guard and the parameter checks. Also here: the error
 responses the check templates write, and the three runtime decisions the
 templates fix (the verb guard, the dispatcher's fallback and the enum
 default).
 */
module Output {
  import opened Wrappers
  import opened Text

  /** One emitted statement of a wrapper, for the Go field `field` read from the form key `param`. */
  datatype Check =
      /** `output.F = r.FormValue("p")` */
    | DecodeString(field: string, param: string)
      /** `output.F, _ = strconv.Atoi(r.FormValue("p"))`: the conversion error is discarded. */
    | DecodeInt(field: string, param: string)
    | Required(field: string, param: string)
    | MinLen(field: string, param: string, bound: string)
    | MinNum(field: string, param: string, bound: string)
    | MaxLen(field: string, param: string, bound: string)
    | MaxNum(field: string, param: string, bound: string)
      /** The enum switch: one case per value, and `dflt` stored when the value is empty. */
    | Enum(field: string, param: string, values: seq<string>, dflt: string)

  /** `output := &T{}` followed by the checks of every registered field of `T`, field by field. */
  datatype ParamBlock = ParamBlock(typeName: string, fields: seq<seq<Check>>)

  /** `func (srv *R) MWrapper(...)`: the verb guard for `verb`, then the parameter blocks. */
  datatype Wrapper = Wrapper(recv: string, methodName: string, verb: string, blocks: seq<ParamBlock>)

  /** `case "path": srv.MWrapper(w, r)` */
  datatype Case = Case(path: string, methodName: string)

  /** Everything emitted for one receiver type: its `ServeHTTP` switch (the cases, then a 404 default) and its wrappers. */
  datatype Handler = Handler(recv: string, cases: seq<Case>, wrappers: seq<Wrapper>)

  /** The generated file: package clause, the handlers, and the shared `checkRequestMethod` helper. */
  datatype Unit = Unit(pkg: string, handlers: seq<Handler>)

  /** The name of the wrapper a method gets. */
  function WrapperName(methodName: string): string {
    methodName + "Wrapper"
  }

  /** The position of a check in the fixed per-field order: decode, required, min, max, enum. */
  function Rank(c: Check): nat {
    match c
    case DecodeString(_, _) => 0
    case DecodeInt(_, _) => 0
    case Required(_, _) => 1
    case MinLen(_, _, _) => 2
    case MinNum(_, _, _) => 2
    case MaxLen(_, _, _) => 3
    case MaxNum(_, _, _) => 3
    case Enum(_, _, _, _) => 4
  }

  /** Ranks strictly increase, so each kind of check appears at most once and in the fixed order. */
  predicate InCheckOrder(cs: seq<Check>) {
    forall i, j :: 0 <= i < j < |cs| ==> Rank(cs[i]) < Rank(cs[j])
  }

  // ---------------------------------------------------------------------
  // Error responses

  /** `http.Error(w, message, status)`, which writes the message and a newline as the body. */
  datatype HttpError = HttpError(status: int, message: string)

  /** What a violated check reports, independent of the wording. */
  datatype Violation =
    | Missing
    | TooShort(bound: string)
    | TooLong(bound: string)
    | TooSmall(bound: string)
    | TooLarge(bound: string)
    | NotOneOf(listing: string)

  const MissingText := " must me not empty"
  const TooShortText := " len must be >= "
  const TooLongText := " len must be <= "
  const TooSmallText := " must be >= "
  const TooLargeText := " must be <= "
  const NotOneOfText := " must be one of ["

  /** The message the templates write for a violation of the rule on form key `param`. */
  function MessageFor(param: string, v: Violation): string {
    match v
    case Missing => param + MissingText
    case TooShort(b) => param + TooShortText + b
    case TooLong(b) => param + TooLongText + b
    case TooSmall(b) => param + TooSmallText + b
    case TooLarge(b) => param + TooLargeText + b
    case NotOneOf(l) => param + NotOneOfText + l + "]"
  }

  /** The tail of a message after the parameter, read on its own. */
  function ReadTail(m: string): Option<Violation> {
    if m == MissingText then Some(Missing)
    else if HasPrefix(m, TooShortText) then Some(TooShort(m[|TooShortText|..]))
    else if HasPrefix(m, TooLongText) then Some(TooLong(m[|TooLongText|..]))
    else if HasPrefix(m, TooSmallText) then Some(TooSmall(m[|TooSmallText|..]))
    else if HasPrefix(m, TooLargeText) then Some(TooLarge(m[|TooLargeText|..]))
    else if HasPrefix(m, NotOneOfText) && |m| > |NotOneOfText| && m[|m| - 1] == ']' then
      Some(NotOneOf(m[|NotOneOfText|..|m| - 1]))
    else None
  }

  /** Reads a message of form key `param` back into the violation it reports. */
  function ReadMessage(param: string, msg: string): Option<Violation> {
    if HasPrefix(msg, param) then ReadTail(msg[|param|..]) else None
  }

  /** The listing an enum message shows: `[` + the values joined by `, ` + `]`, without the brackets. */
  function Listing(values: seq<string>): string {
    Join(values, ", ")
  }

  /**
   What a check reports when it fails, as the templates are written: the
   max-length template prints `.Min`, which that call site leaves empty, so
   the bound is lost. Decoding never fails.
   */
  function ViolationAsWritten(c: Check): Option<Violation> {
    match c
    case DecodeString(_, _) => None
    case DecodeInt(_, _) => None
    case Required(_, _) => Some(Missing)
    case MinLen(_, _, b) => Some(TooShort(b))
    case MinNum(_, _, b) => Some(TooSmall(b))
    case MaxLen(_, _, _) => Some(TooLong(""))
    case MaxNum(_, _, b) => Some(TooLarge(b))
    case Enum(_, _, vs, _) => Some(NotOneOf(Listing(vs)))
  }

  /** What a check reports when it fails, with the max-length bound printed as intended. */
  function Violated(c: Check): Option<Violation> {
    match c
    case MaxLen(_, _, b) => Some(TooLong(b))
    case _ => ViolationAsWritten(c)
  }

  /** The response of a failing check as the templates write it. */
  function RejectionAsWritten(c: Check): Option<HttpError> {
    match ViolationAsWritten(c)
    case None => None
    case Some(v) => Some(HttpError(400, MessageFor(c.param, v)))
  }

  /** The response of a failing check, with the max-length bound printed. */
  function Rejection(c: Check): Option<HttpError> {
    match Violated(c)
    case None => None
    case Some(v) => Some(HttpError(400, MessageFor(c.param, v)))
  }

  /** Every message reads back as the violation it was written for: distinct violations give distinct messages. */
  lemma {:induction false} ReadMessageRoundTrip(param: string, v: Violation)
    ensures ReadMessage(param, MessageFor(param, v)) == Some(v)
  {
    var msg := MessageFor(param, v);
    assert HasPrefix(msg, param);
    var m := msg[|param|..];
    match v {
      case Missing =>
        assert m == MissingText;
      case TooShort(b) =>
        assert m == TooShortText + b;
        ReadTooShort(m, b);
      case TooLong(b) =>
        assert m == TooLongText + b;
        ReadTooLong(m, b);
      case TooSmall(b) =>
        assert m == TooSmallText + b;
        ReadTooSmall(m, b);
      case TooLarge(b) =>
        assert m == TooLargeText + b;
        ReadTooLarge(m, b);
      case NotOneOf(l) =>
        assert m == NotOneOfText + (l + "]");
        ReadNotOneOf(m, l);
    }
  }

  lemma ReadTooShort(m: string, b: string)
    requires m == TooShortText + b
    ensures ReadTail(m) == Some(TooShort(b))
  {
    assert m[0] != MissingText[0] || m[1] != MissingText[1];
    assert m[..|TooShortText|] == TooShortText;
  }

  lemma ReadTooLong(m: string, b: string)
    requires m == TooLongText + b
    ensures ReadTail(m) == Some(TooLong(b))
  {
    assert m[1] != MissingText[1];
    assert m[13] != TooShortText[13];
    assert m[..|TooLongText|] == TooLongText;
  }

  lemma ReadTooSmall(m: string, b: string)
    requires m == TooSmallText + b
    ensures ReadTail(m) == Some(TooSmall(b))
  {
    assert m[6] != MissingText[6];
    assert m[1] != TooShortText[1] && m[1] != TooLongText[1];
    assert m[..|TooSmallText|] == TooSmallText;
  }

  lemma ReadTooLarge(m: string, b: string)
    requires m == TooLargeText + b
    ensures ReadTail(m) == Some(TooLarge(b))
  {
    assert m[6] != MissingText[6];
    assert m[1] != TooShortText[1] && m[1] != TooLongText[1];
    assert m[9] != TooSmallText[9];
    assert m[..|TooLargeText|] == TooLargeText;
  }

  lemma ReadNotOneOf(m: string, l: string)
    requires m == NotOneOfText + (l + "]")
    ensures ReadTail(m) == Some(NotOneOf(l))
  {
    assert m[6] != MissingText[6];
    assert m[1] != TooShortText[1] && m[1] != TooLongText[1];
    assert m[9] != TooSmallText[9] && m[9] != TooLargeText[9];
    assert m[..|NotOneOfText|] == NotOneOfText;
    assert m[|NotOneOfText|..|m| - 1] == l;
  }

  /** A rejection of the corrected templates names the violated rule and its bound. */
  lemma RejectionReadsBack(c: Check)
    requires Violated(c).Some?
    ensures Rejection(c).Some? && Rejection(c).value.status == 400
    ensures ReadMessage(c.param, Rejection(c).value.message) == Violated(c)
  {
    ReadMessageRoundTrip(c.param, Violated(c).value);
  }

  /** Only the decode statements never reject; every other check rejects with status 400. */
  lemma RejectsUnlessDecode(c: Check)
    ensures Rejection(c).Some? <==> Rank(c) > 0
    ensures Rejection(c).Some? ==> Rejection(c).value.status == 400
  {
  }

  /**
   As the templates are written, two max-length checks on the same key with
   different bounds give the same message, and it reads back with an empty
   bound.
   */
  lemma MaxLenMessageDropsBound(field: string, param: string, b1: string, b2: string)
    ensures RejectionAsWritten(MaxLen(field, param, b1)) == RejectionAsWritten(MaxLen(field, param, b2))
    ensures ReadMessage(param, RejectionAsWritten(MaxLen(field, param, b1)).value.message) == Some(TooLong(""))
  {
    ReadMessageRoundTrip(param, TooLong(""));
  }

  /** Concretely: `login len must be <= ` for a maximum of 10, where `login len must be <= 10` is meant. */
  lemma MaxLenMessageExample()
    ensures RejectionAsWritten(MaxLen("Login", "login", "10")).value.message == "login len must be <= "
    ensures Rejection(MaxLen("Login", "login", "10")).value.message == "login len must be <= 10"
  {
  }

  /** The corrected messages differ for max-length checks with different bounds. */
  lemma MaxLenMessageKeepsBound(field: string, param: string, b1: string, b2: string)
    requires b1 != b2
    ensures Rejection(MaxLen(field, param, b1)) != Rejection(MaxLen(field, param, b2))
  {
    ReadMessageRoundTrip(param, TooLong(b1));
    ReadMessageRoundTrip(param, TooLong(b2));
  }

  // ---------------------------------------------------------------------
  // Runtime decisions fixed by the templates

  /**
   The generated `checkRequestMethod`: no response when the declared verb is
   the request's or none was declared, otherwise 406 `bad method`.
   */
  function VerbGuard(declared: string, requestVerb: string): Option<HttpError> {
    if declared == requestVerb || declared == "" then None
    else Some(HttpError(406, "bad method"))
  }

  /**
   The `ServeHTTP` switch: the wrapper of the first case for the path, or the
   default's `http.Error` with status 404 and an empty message.
   */
  function Dispatch(cases: seq<Case>, path: string): (r: Result<string, HttpError>)
    ensures r.Failure? ==> r.error == HttpError(404, "")
    decreases |cases|
  {
    if |cases| == 0 then Failure(HttpError(404, ""))
    else if cases[0].path == path then Success(WrapperName(cases[0].methodName))
    else Dispatch(cases[1..], path)
  }

  /** The path has a case in the switch. */
  predicate Routed(cases: seq<Case>, path: string) {
    exists k :: 0 <= k < |cases| && cases[k].path == path
  }

  /**
   The switch sends a path to the wrapper of its first case, and answers 404
   exactly for the paths it has no case for.
   */
  lemma {:induction false} DispatchFirstCase(cases: seq<Case>, path: string)
    ensures Dispatch(cases, path).Failure? <==> !Routed(cases, path)
    ensures Routed(cases, path) ==>
              exists k :: 0 <= k < |cases| && cases[k].path == path
                          && (forall j :: 0 <= j < k ==> cases[j].path != path)
                          && Dispatch(cases, path) == Success(WrapperName(cases[k].methodName))
    decreases |cases|
  {
    if |cases| > 0 && cases[0].path != path {
      DispatchFirstCase(cases[1..], path);
      if Routed(cases, path) {
        var k :| 0 <= k < |cases| && cases[k].path == path;
        assert cases[1..][k - 1].path == path;
        var k' :| 0 <= k' < |cases[1..]| && cases[1..][k'].path == path
                  && (forall j :: 0 <= j < k' ==> cases[1..][j].path != path)
                  && Dispatch(cases[1..], path) == Success(WrapperName(cases[1..][k'].methodName));
        assert forall j :: 0 <= j < k' + 1 ==> cases[j].path != path by {
          forall j | 0 <= j < k' + 1
            ensures cases[j].path != path
          {
            if j > 0 {
              assert cases[j] == cases[1..][j - 1];
            }
          }
        }
      }
      if Routed(cases[1..], path) {
        var k :| 0 <= k < |cases[1..]| && cases[1..][k].path == path;
        assert cases[k + 1].path == path;
      }
    } else if |cases| > 0 {
      assert cases[0].path == path;
    }
  }

  /**
   The enum check at run time: a non-empty value must be one of the listed
   values (else 400 with the listing); an empty value is replaced by the
   default, which is not itself checked against the list.
   */
  function EnumOutcome(param: string, values: seq<string>, dflt: string, incoming: string): (r: Result<string, HttpError>)
    ensures incoming == "" ==> r == Success(dflt)
    ensures incoming != "" ==> (r.Success? <==> incoming in values)
    ensures r.Success? ==> r.value == dflt || r.value in values
    ensures incoming != "" && r.Success? ==> r.value == incoming
  {
    if incoming != "" then
      if incoming in values then Success(incoming)
      else Failure(Rejection(Enum("", param, values, dflt)).value)
    else Success(dflt)
  }

  /** A rejected enum value is answered with 400 and a message listing every allowed value in order. */
  lemma EnumRejectionListsValues(param: string, values: seq<string>, dflt: string, incoming: string)
    requires EnumOutcome(param, values, dflt, incoming).Failure?
    ensures EnumOutcome(param, values, dflt, incoming).error.status == 400
    ensures ReadMessage(param, EnumOutcome(param, values, dflt, incoming).error.message) == Some(NotOneOf(Join(values, ", ")))
  {
    ReadMessageRoundTrip(param, NotOneOf(Join(values, ", ")));
  }
}

=== FILE: properties.dfy ===
/**
 What the emitted handlers are guaranteed to look like, stated against the
 inputs of the generator: the struct tags, the doc comments and the
 declaration order.
 */
module Properties {
  import opened Wrappers
  import opened Text
  import opened Ast
  import opened Diagnostics
  import opened Rules
  import opened Output
  import opened Emitter
  import Annotations
  import Groups
  import Selection

  // ---------------------------------------------------------------------
  // Per-field checks

  /** Membership in a five-part concatenation. */
  lemma InFive<T>(a: seq<T>, b: seq<T>, c: seq<T>, d: seq<T>, e: seq<T>, x: T)
    ensures x in a + b + c + d + e <==> x in a || x in b || x in c || x in d || x in e
  {
  }

  /** Appending a check of rank `k` after checks of smaller rank keeps the fixed order. */
  lemma AppendInOrder(a: seq<Check>, b: seq<Check>, k: nat)
    requires InCheckOrder(a) && forall x :: x in a ==> Rank(x) < k
    requires |b| <= 1 && forall y :: y in b ==> Rank(y) == k
    ensures InCheckOrder(a + b) && forall x :: x in a + b ==> Rank(x) <= k
  {
    forall i, j | 0 <= i < j < |a + b|
      ensures Rank((a + b)[i]) < Rank((a + b)[j])
    {
      if j >= |a| {
        assert (a + b)[i] in a;
        assert (a + b)[j] in b;
      }
    }
  }

  /** A successful field has a name and an identifier type, and its checks are the five parts in order. */
  lemma ChecksForParts(structName: string, names: seq<string>, typ: FieldType, rules: RuleSet)
    requires ChecksFor(structName, names, typ, rules).Success?
    ensures |names| > 0 && typ.Ident?
    ensures EnumChecks(rules, names[0], WireName(names[0], rules)).Success?
    ensures var name := names[0];
            var param := WireName(name, rules);
            ChecksFor(structName, names, typ, rules).value ==
              DecodeChecks(typ.name, name, param) + RequiredChecks(rules, name, param)
              + MinChecks(typ.name, rules, name, param) + MaxChecks(typ.name, rules, name, param)
              + EnumChecks(rules, name, param).value
  {
  }

  /** Every check a part emits is about the given field and form key. */
  predicate About(cs: seq<Check>, name: string, param: string) {
    forall c :: c in cs ==> c.field == name && c.param == param
  }

  /** Each part emits at most one check, of its own rank, about the field. */
  lemma PartsShape(kind: string, rules: RuleSet, name: string, param: string)
    requires EnumChecks(rules, name, param).Success?
    ensures var d := DecodeChecks(kind, name, param);
            |d| <= 1 && About(d, name, param) && forall c :: c in d ==> Rank(c) == 0
    ensures var r := RequiredChecks(rules, name, param);
            |r| <= 1 && About(r, name, param) && forall c :: c in r ==> Rank(c) == 1
    ensures var mn := MinChecks(kind, rules, name, param);
            |mn| <= 1 && About(mn, name, param) && forall c :: c in mn ==> Rank(c) == 2
    ensures var mx := MaxChecks(kind, rules, name, param);
            |mx| <= 1 && About(mx, name, param) && forall c :: c in mx ==> Rank(c) == 3
    ensures var e := EnumChecks(rules, name, param).value;
            |e| <= 1 && About(e, name, param) && forall c :: c in e ==> Rank(c) == 4
  {
  }

  /**
   Whatever the rules, a field's checks come in the fixed order decode,
   required, min, max, enum, each at most once, and every check is about the
   field's first name read from its wire name.
   */
  lemma ChecksInOrder(structName: string, names: seq<string>, typ: FieldType, rules: RuleSet)
    requires ChecksFor(structName, names, typ, rules).Success?
    ensures InCheckOrder(ChecksFor(structName, names, typ, rules).value)
    ensures |names| > 0 && About(ChecksFor(structName, names, typ, rules).value, names[0], WireName(names[0], rules))
  {
    ChecksForParts(structName, names, typ, rules);
    var name := names[0];
    var param := WireName(name, rules);
    var kind := typ.name;
    var d := DecodeChecks(kind, name, param);
    var r := RequiredChecks(rules, name, param);
    var mn := MinChecks(kind, rules, name, param);
    var mx := MaxChecks(kind, rules, name, param);
    var e := EnumChecks(rules, name, param).value;
    PartsShape(kind, rules, name, param);
    AppendInOrder([], d, 0);
    assert [] + d == d;
    AppendInOrder(d, r, 1);
    AppendInOrder(d + r, mn, 2);
    AppendInOrder(d + r + mn, mx, 3);
    AppendInOrder(d + r + mn + mx, e, 4);
    forall c: Check | c in d + r + mn + mx + e
      ensures c.field == name && c.param == param
    {
      InFive(d, r, mn, mx, e, c);
    }
  }

  /** A minimum rule is a length check for `string`, a value check for `int`, and nothing otherwise. */
  lemma ChecksMin(structName: string, names: seq<string>, typ: FieldType, rules: RuleSet)
    requires ChecksFor(structName, names, typ, rules).Success?
    ensures |names| > 0 && typ.Ident?
    ensures var cs := ChecksFor(structName, names, typ, rules).value;
            var param := WireName(names[0], rules);
            && (forall c :: c in cs && c.MinLen? ==> typ.name == "string" && rules.min == Some(c.bound))
            && (forall c :: c in cs && c.MinNum? ==> typ.name == "int" && rules.min == Some(c.bound))
            && (rules.min.Some? && typ.name == "string" ==> MinLen(names[0], param, rules.min.value) in cs)
            && (rules.min.Some? && typ.name == "int" ==> MinNum(names[0], param, rules.min.value) in cs)
  {
    ChecksForParts(structName, names, typ, rules);
    var name := names[0];
    var param := WireName(name, rules);
    var kind := typ.name;
    var d := DecodeChecks(kind, name, param);
    var r := RequiredChecks(rules, name, param);
    var mn := MinChecks(kind, rules, name, param);
    var mx := MaxChecks(kind, rules, name, param);
    var e := EnumChecks(rules, name, param).value;
    PartsShape(kind, rules, name, param);
    forall c: Check | c in d + r + mn + mx + e && (c.MinLen? || c.MinNum?)
      ensures c in mn
    {
      InFive(d, r, mn, mx, e, c);
    }
    if rules.min.Some? && (kind == "string" || kind == "int") {
      InFive(d, r, mn, mx, e, mn[0]);
    }
  }

  /** A maximum rule is a length check for `string`, a value check for `int`, and nothing otherwise. */
  lemma ChecksMax(structName: string, names: seq<string>, typ: FieldType, rules: RuleSet)
    requires ChecksFor(structName, names, typ, rules).Success?
    ensures |names| > 0 && typ.Ident?
    ensures var cs := ChecksFor(structName, names, typ, rules).value;
            var param := WireName(names[0], rules);
            && (forall c :: c in cs && c.MaxLen? ==> typ.name == "string" && rules.max == Some(c.bound))
            && (forall c :: c in cs && c.MaxNum? ==> typ.name == "int" && rules.max == Some(c.bound))
            && (rules.max.Some? && typ.name == "string" ==> MaxLen(names[0], param, rules.max.value) in cs)
            && (rules.max.Some? && typ.name == "int" ==> MaxNum(names[0], param, rules.max.value) in cs)
  {
    ChecksForParts(structName, names, typ, rules);
    var name := names[0];
    var param := WireName(name, rules);
    var kind := typ.name;
    var d := DecodeChecks(kind, name, param);
    var r := RequiredChecks(rules, name, param);
    var mn := MinChecks(kind, rules, name, param);
    var mx := MaxChecks(kind, rules, name, param);
    var e := EnumChecks(rules, name, param).value;
    PartsShape(kind, rules, name, param);
    forall c: Check | c in d + r + mn + mx + e && (c.MaxLen? || c.MaxNum?)
      ensures c in mx
    {
      InFive(d, r, mn, mx, e, c);
    }
    if rules.max.Some? && (kind == "string" || kind == "int") {
      InFive(d, r, mn, mx, e, mx[0]);
    }
  }

  /** A required check appears exactly when the rules ask for one. */
  lemma ChecksRequired(structName: string, names: seq<string>, typ: FieldType, rules: RuleSet)
    requires ChecksFor(structName, names, typ, rules).Success?
    ensures (exists c :: c in ChecksFor(structName, names, typ, rules).value && c.Required?) <==> rules.required
  {
    ChecksForParts(structName, names, typ, rules);
    var name := names[0];
    var param := WireName(name, rules);
    var kind := typ.name;
    var d := DecodeChecks(kind, name, param);
    var r := RequiredChecks(rules, name, param);
    var mn := MinChecks(kind, rules, name, param);
    var mx := MaxChecks(kind, rules, name, param);
    var e := EnumChecks(rules, name, param).value;
    PartsShape(kind, rules, name, param);
    forall c: Check | c in d + r + mn + mx + e && c.Required?
      ensures rules.required
    {
      InFive(d, r, mn, mx, e, c);
    }
    if rules.required {
      InFive(d, r, mn, mx, e, Required(name, param));
    }
  }

  /** The decode comes first, and only `string` and `int` fields have one. */
  lemma ChecksDecode(structName: string, names: seq<string>, typ: FieldType, rules: RuleSet)
    requires ChecksFor(structName, names, typ, rules).Success?
    ensures typ.Ident?
    ensures var cs := ChecksFor(structName, names, typ, rules).value;
            && (typ.name == "string" <==> |cs| > 0 && cs[0].DecodeString?)
            && (typ.name == "int" <==> |cs| > 0 && cs[0].DecodeInt?)
  {
    ChecksForParts(structName, names, typ, rules);
    var name := names[0];
    var param := WireName(name, rules);
    var kind := typ.name;
    var d := DecodeChecks(kind, name, param);
    var r := RequiredChecks(rules, name, param);
    var mn := MinChecks(kind, rules, name, param);
    var mx := MaxChecks(kind, rules, name, param);
    var e := EnumChecks(rules, name, param).value;
    var cs := d + r + mn + mx + e;
    PartsShape(kind, rules, name, param);
    if |cs| > 0 && |d| == 0 {
      InFive(d, r, mn, mx, e, cs[0]);
    }
  }

  /** An enum check appears exactly for an enum rule, with the values split on `|` and the default rule's value. */
  lemma ChecksEnum(structName: string, names: seq<string>, typ: FieldType, rules: RuleSet)
    requires ChecksFor(structName, names, typ, rules).Success?
    ensures var cs := ChecksFor(structName, names, typ, rules).value;
            && ((exists c :: c in cs && c.Enum?) <==> rules.enumValues.Some?)
            && forall c :: c in cs && c.Enum? ==>
                 && rules.enumValues.Some? && rules.dflt == Some(c.dflt)
                 && c.values == Split(rules.enumValues.value, '|')
  {
    ChecksForParts(structName, names, typ, rules);
    var name := names[0];
    var param := WireName(name, rules);
    var kind := typ.name;
    var d := DecodeChecks(kind, name, param);
    var r := RequiredChecks(rules, name, param);
    var mn := MinChecks(kind, rules, name, param);
    var mx := MaxChecks(kind, rules, name, param);
    var e := EnumChecks(rules, name, param).value;
    PartsShape(kind, rules, name, param);
    forall c: Check | c in d + r + mn + mx + e && c.Enum?
      ensures c in e
    {
      InFive(d, r, mn, mx, e, c);
    }
    if rules.enumValues.Some? {
      InFive(d, r, mn, mx, e, e[0]);
    }
  }

  /** The checks of a field fail for a missing name, then a non-identifier type, then an enum without default. */
  lemma ChecksForFailure(structName: string, names: seq<string>, typ: FieldType, rules: RuleSet)
    ensures ChecksFor(structName, names, typ, rules).Failure? <==>
              |names| == 0 || typ.Composite? || (rules.enumValues.Some? && rules.dflt.None?)
    ensures ChecksFor(structName, names, typ, rules).Failure? ==>
              ChecksFor(structName, names, typ, rules).error ==
                if |names| == 0 then UnnamedField(structName)
                else if typ.Composite? then UnsupportedFieldType(names[0])
                else EnumWithoutDefault(names[0])
  {
  }

  /**
   A field's checks fail exactly for an embedded field, a non-identifier type,
   or an `enum=` rule without a `default=` rule, in that order of precedence.
   */
  lemma FieldChecksFailure(structName: string, f: Field)
    requires f.tag.Some?
    ensures FieldChecks(structName, f).Failure? <==>
              || |f.names| == 0
              || f.typ.Composite?
              || (Contains(ValidatorTag(f), "enum=") && !Contains(ValidatorTag(f), "default="))
    ensures FieldChecks(structName, f).Failure? ==>
              FieldChecks(structName, f).error ==
                if |f.names| == 0 then UnnamedField(structName)
                else if f.typ.Composite? then UnsupportedFieldType(f.names[0])
                else EnumWithoutDefault(f.names[0])
  {
    var tag := ValidatorTag(f);
    RuleValueSpec(tag, "enum");
    RuleValueSpec(tag, "default");
    assert "enum" + "=" == "enum=";
    assert "default" + "=" == "default=";
    ChecksForFailure(structName, f.names, f.typ, ParseRules(tag));
  }

  /** A `required` check is emitted exactly when the tag holds `required=`; a bare `required` word is not enough. */
  lemma FieldChecksRequired(structName: string, f: Field)
    requires f.tag.Some? && FieldChecks(structName, f).Success?
    ensures (exists c :: c in FieldChecks(structName, f).value && c.Required?) <==> Contains(ValidatorTag(f), "required=")
  {
    ChecksRequired(structName, f.names, f.typ, ParseRules(ValidatorTag(f)));
  }

  /**
   Every check is about the field's first name, read from the form key given
   by the `paramname=` value when the tag holds one, else the lower-cased
   field name; and the checks follow the fixed order.
   */
  lemma FieldChecksWireName(structName: string, f: Field)
    requires f.tag.Some? && FieldChecks(structName, f).Success?
    ensures InCheckOrder(FieldChecks(structName, f).value)
    ensures |f.names| > 0
    ensures RuleValue(ValidatorTag(f), "paramname").Some? <==> Contains(ValidatorTag(f), "paramname=")
    ensures About(FieldChecks(structName, f).value, f.names[0],
                  if Contains(ValidatorTag(f), "paramname=")
                  then RuleValue(ValidatorTag(f), "paramname").value
                  else ToLower(f.names[0]))
  {
    RuleValueSpec(ValidatorTag(f), "paramname");
    assert "paramname" + "=" == "paramname=";
    ChecksInOrder(structName, f.names, f.typ, ParseRules(ValidatorTag(f)));
  }

  /**
   A `min=` rule becomes a length check on a `string` field, a value check on
   an `int` field and nothing on other types, with the rule's value as bound.
   */
  lemma FieldChecksMin(structName: string, f: Field)
    requires f.tag.Some? && FieldChecks(structName, f).Success?
    ensures |f.names| > 0 && f.typ.Ident?
    ensures RuleValue(ValidatorTag(f), "min").Some? <==> Contains(ValidatorTag(f), "min=")
    ensures var cs := FieldChecks(structName, f).value;
            var tag := ValidatorTag(f);
            var param := WireName(f.names[0], ParseRules(tag));
            && (forall c :: c in cs && c.MinLen? ==> f.typ.name == "string" && RuleValue(tag, "min") == Some(c.bound))
            && (forall c :: c in cs && c.MinNum? ==> f.typ.name == "int" && RuleValue(tag, "min") == Some(c.bound))
            && (Contains(tag, "min=") && f.typ.name == "string" ==> MinLen(f.names[0], param, RuleValue(tag, "min").value) in cs)
            && (Contains(tag, "min=") && f.typ.name == "int" ==> MinNum(f.names[0], param, RuleValue(tag, "min").value) in cs)
  {
    RuleValueSpec(ValidatorTag(f), "min");
    assert "min" + "=" == "min=";
    ChecksMin(structName, f.names, f.typ, ParseRules(ValidatorTag(f)));
  }

  /**
   A `max=` rule becomes a length check on a `string` field, a value check on
   an `int` field and nothing on other types, with the rule's value as bound.
   */
  lemma FieldChecksMax(structName: string, f: Field)
    requires f.tag.Some? && FieldChecks(structName, f).Success?
    ensures |f.names| > 0 && f.typ.Ident?
    ensures RuleValue(ValidatorTag(f), "max").Some? <==> Contains(ValidatorTag(f), "max=")
    ensures var cs := FieldChecks(structName, f).value;
            var tag := ValidatorTag(f);
            var param := WireName(f.names[0], ParseRules(tag));
            && (forall c :: c in cs && c.MaxLen? ==> f.typ.name == "string" && RuleValue(tag, "max") == Some(c.bound))
            && (forall c :: c in cs && c.MaxNum? ==> f.typ.name == "int" && RuleValue(tag, "max") == Some(c.bound))
            && (Contains(tag, "max=") && f.typ.name == "string" ==> MaxLen(f.names[0], param, RuleValue(tag, "max").value) in cs)
            && (Contains(tag, "max=") && f.typ.name == "int" ==> MaxNum(f.names[0], param, RuleValue(tag, "max").value) in cs)
  {
    RuleValueSpec(ValidatorTag(f), "max");
    assert "max" + "=" == "max=";
    ChecksMax(structName, f.names, f.typ, ParseRules(ValidatorTag(f)));
  }

  /** Only `string` and `int` fields are decoded, and the decode comes first. */
  lemma FieldChecksDecode(structName: string, f: Field)
    requires f.tag.Some? && FieldChecks(structName, f).Success?
    ensures f.typ.Ident?
    ensures var cs := FieldChecks(structName, f).value;
            && (f.typ.name == "string" <==> |cs| > 0 && cs[0].DecodeString?)
            && (f.typ.name == "int" <==> |cs| > 0 && cs[0].DecodeInt?)
  {
    ChecksDecode(structName, f.names, f.typ, ParseRules(ValidatorTag(f)));
  }

  /**
   An `enum=` rule becomes one enum check whose values are the rule's value
   split on `|`, in order (joining them back gives the rule's value), with
   the `default=` value as default.
   */
  lemma FieldChecksEnum(structName: string, f: Field)
    requires f.tag.Some? && FieldChecks(structName, f).Success?
    ensures var cs := FieldChecks(structName, f).value;
            var tag := ValidatorTag(f);
            && ((exists c :: c in cs && c.Enum?) <==> Contains(tag, "enum="))
            && forall c :: c in cs && c.Enum? ==>
                 && RuleValue(tag, "enum").Some? && RuleValue(tag, "default") == Some(c.dflt)
                 && c.values == Split(RuleValue(tag, "enum").value, '|')
                 && Join(c.values, "|") == RuleValue(tag, "enum").value
  {
    var tag := ValidatorTag(f);
    RuleValueSpec(tag, "enum");
    assert "enum" + "=" == "enum=";
    ChecksEnum(structName, f.names, f.typ, ParseRules(tag));
    if RuleValue(tag, "enum").Some? {
      JoinSplit(RuleValue(tag, "enum").value, '|');
    }
  }

  /**
   The checks do not depend on the order of the rule tokens: two fields whose
   validator tags list the same distinct-key tokens in any order get the same
   checks.
   */
  lemma FieldChecksIgnoreTokenOrder(structName: string, f1: Field, f2: Field, ts1: seq<Token>, ts2: seq<Token>)
    requires f1.tag.Some? && f2.tag.Some? && f1.names == f2.names && f1.typ == f2.typ
    requires ValidatorTag(f1) == RenderTag(ts1) && ValidatorTag(f2) == RenderTag(ts2)
    requires TokensOk(ts1) && TokensOk(ts2) && multiset(ts1) == multiset(ts2) && UniqueKeys(ts1)
    ensures FieldChecks(structName, f1) == FieldChecks(structName, f2)
  {
    ParseIgnoresTokenOrder(ts1, ts2);
  }

  // ---------------------------------------------------------------------
  // Parameter blocks

  /** The registered parameter types are the parameters whose type has a table entry, in parameter order. */
  lemma {:induction false} RegisteredParamsSpec(params: seq<string>, structs: Groups.Index<Field>)
    ensures forall p :: p in RegisteredParams(params, structs) <==> p in params && Groups.Has(structs, p)
    ensures |RegisteredParams(params, structs)| <= |params|
    decreases |params|
  {
    if |params| > 0 {
      RegisteredParamsSpec(params[1..], structs);
      assert params == [params[0]] + params[1..];
    }
  }

  /**
   One block: named after its type, with one entry per registered field of
   that type, in field order, each the checks of that field.
   */
  lemma ParamBlockForSpec(typeName: string, structs: Groups.Index<Field>)
    requires TablesTagged(structs) && ParamBlockFor(typeName, structs).Success?
    ensures var b := ParamBlockFor(typeName, structs).value;
            var fs := Groups.Get(structs, typeName);
            && b.typeName == typeName
            && |b.fields| == |fs|
            && forall i :: 0 <= i < |fs| ==> FieldChecks(typeName, fs[i]) == Success(b.fields[i])
  {
    var fs := Groups.Get(structs, typeName);
    assert AllTagged(fs);
    var cs := FieldsChecks(typeName, fs).value;
    forall i | 0 <= i < |fs|
      ensures FieldChecks(typeName, fs[i]) == Success(cs[i])
    {
    }
  }

  /** Some field of `fs` cannot be checked as a field of struct `typeName`. */
  ghost predicate FieldFailsIn(fs: seq<Field>, typeName: string) {
    exists i :: 0 <= i < |fs| && fs[i].tag.Some? && FieldChecks(typeName, fs[i]).Failure?
  }

  /** A block aborts exactly when one of its type's registered fields cannot be checked. */
  lemma ParamBlockForFails(typeName: string, structs: Groups.Index<Field>)
    requires TablesTagged(structs)
    ensures ParamBlockFor(typeName, structs).Failure? <==> FieldFailsIn(Groups.Get(structs, typeName), typeName)
  {
    var fs := Groups.Get(structs, typeName);
    assert AllTagged(fs);
  }

  /**
   A wrapper has one block per parameter whose type has registered fields,
   in parameter order, each holding the checks of that type's registered
   fields; a parameter type without registered fields gets no block.
   */
  lemma ParamBlocksSpec(params: seq<string>, structs: Groups.Index<Field>)
    requires Groups.Valid(structs) && TablesTagged(structs) && ParamBlocks(params, structs).Success?
    ensures var bs := ParamBlocks(params, structs).value;
            && |bs| == |RegisteredParams(params, structs)|
            && (forall k :: 0 <= k < |bs| ==>
                  && bs[k].typeName == RegisteredParams(params, structs)[k]
                  && bs[k].typeName in params
                  && Groups.Get(structs, bs[k].typeName) != []
                  && FieldsChecks(bs[k].typeName, Groups.Get(structs, bs[k].typeName)) == Success(bs[k].fields))
  {
    var bs := ParamBlocks(params, structs).value;
    var reg := RegisteredParams(params, structs);
    RegisteredParamsSpec(params, structs);
    forall k | 0 <= k < |bs|
      ensures bs[k].typeName == reg[k] && reg[k] in params && Groups.Get(structs, reg[k]) != []
      ensures FieldsChecks(reg[k], Groups.Get(structs, reg[k])) == Success(bs[k].fields)
    {
      var t := reg[k];
      assert ParamBlockFor(t, structs) == Success(bs[k]);
      ParamBlockForSpec(t, structs);
      assert t in reg;
      Groups.HasIffNonEmpty(structs, t);
    }
  }

  /** A parameter type without registered fields gets no block, whatever its position. */
  lemma UnregisteredParamHasNoBlock(params: seq<string>, structs: Groups.Index<Field>, t: string)
    requires Groups.Valid(structs) && TablesTagged(structs) && ParamBlocks(params, structs).Success?
    requires Groups.Get(structs, t) == []
    ensures forall b :: b in ParamBlocks(params, structs).value ==> b.typeName != t
  {
    var bs := ParamBlocks(params, structs).value;
    ParamBlocksSpec(params, structs);
    forall b | b in bs
      ensures b.typeName != t
    {
      var k :| 0 <= k < |bs| && bs[k] == b;
    }
  }

  // ---------------------------------------------------------------------
  // Switch and wrappers

  /**
   A receiver's handler has one case and one wrapper per method, in method
   order: case `k` routes the path of method `k` to the wrapper of method
   `k`, and that wrapper guards with the verb of method `k` and holds the
   parameter blocks of method `k`.
   */
  lemma HandlerShape(recv: string, ms: seq<FuncDecl>, structs: Groups.Index<Field>)
    requires AllDocumented(ms) && TablesTagged(structs) && EmitHandler(recv, ms, structs).Success?
    ensures var h := EmitHandler(recv, ms, structs).value;
            && h.recv == recv && |h.cases| == |ms| && |h.wrappers| == |ms|
            && forall k :: 0 <= k < |ms| ==>
                 && h.cases[k] == Case(RouteOf(ms[k]).value, ms[k].name)
                 && h.wrappers[k].methodName == ms[k].name
                 && h.wrappers[k].recv == recv
                 && h.wrappers[k].verb == Annotations.RequestMethod(DocText(ms[k].doc))
                 && ParamBlocks(ms[k].params, structs) == Success(h.wrappers[k].blocks)
  {
    var h := EmitHandler(recv, ms, structs).value;
    forall k | 0 <= k < |ms|
      ensures h.cases[k] == Case(RouteOf(ms[k]).value, ms[k].name)
      ensures h.wrappers[k].methodName == ms[k].name && h.wrappers[k].recv == recv
      ensures h.wrappers[k].verb == Annotations.RequestMethod(DocText(ms[k].doc))
      ensures ParamBlocks(ms[k].params, structs) == Success(h.wrappers[k].blocks)
    {
      assert CaseFor(ms[k]) == Success(h.cases[k]);
      assert EmitWrapper(recv, ms[k], structs) == Success(h.wrappers[k]);
    }
  }

  /** The case loop: case `k` maps the route of method `k` to its wrapper. */
  lemma EmitCasesSpec(ms: seq<FuncDecl>)
    requires AllDocumented(ms) && EmitCases(ms).Success?
    ensures |EmitCases(ms).value| == |ms|
    ensures forall k :: 0 <= k < |ms| ==> RouteOf(ms[k]).Success?
    ensures forall k :: 0 <= k < |ms| ==> EmitCases(ms).value[k] == Case(RouteOf(ms[k]).value, ms[k].name)
  {
    var cases := EmitCases(ms).value;
    forall k | 0 <= k < |ms|
      ensures RouteOf(ms[k]).Success? && cases[k] == Case(RouteOf(ms[k]).value, ms[k].name)
    {
      assert CaseFor(ms[k]) == Success(cases[k]);
    }
  }

  /** The case loop fails exactly when some method's doc comment has a line without a route. */
  lemma EmitCasesFails(ms: seq<FuncDecl>)
    requires AllDocumented(ms)
    ensures EmitCases(ms).Failure? <==> exists k :: 0 <= k < |ms| && RouteOf(ms[k]).Failure?
  {
    if EmitCases(ms).Failure? {
      var k :| 0 <= k < |ms| && CaseFor(ms[k]).Failure?;
      assert RouteOf(ms[k]).Failure?;
    }
    if exists k :: 0 <= k < |ms| && RouteOf(ms[k]).Failure? {
      var k :| 0 <= k < |ms| && RouteOf(ms[k]).Failure?;
      assert CaseFor(ms[k]).Failure?;
    }
  }

  /**
   Dispatch round trip: a request for the route of method `k`, when no
   earlier method has that route, reaches the wrapper of method `k`; a path
   that is no method's route gets 404 with an empty message.
   */
  lemma DispatchReachesMethod(ms: seq<FuncDecl>, path: string)
    requires AllDocumented(ms) && EmitCases(ms).Success?
    ensures var cases := EmitCases(ms).value;
            && ((forall k :: 0 <= k < |ms| ==> RouteOf(ms[k]).value != path) ==> Dispatch(cases, path) == Failure(HttpError(404, "")))
            && forall k :: 0 <= k < |ms| && RouteOf(ms[k]).value == path && (forall j :: 0 <= j < k ==> RouteOf(ms[j]).value != path) ==>
                 Dispatch(cases, path) == Success(WrapperName(ms[k].name))
  {
    var cases := EmitCases(ms).value;
    EmitCasesSpec(ms);
    DispatchFirstCase(cases, path);
    if Routed(cases, path) {
      var k :| 0 <= k < |cases| && cases[k].path == path
               && (forall j :: 0 <= j < k ==> cases[j].path != path)
               && Dispatch(cases, path) == Success(WrapperName(cases[k].methodName));
      forall k' | 0 <= k' < |ms| && RouteOf(ms[k']).value == path && (forall j :: 0 <= j < k' ==> RouteOf(ms[j]).value != path)
        ensures k' == k
      {
      }
    }
  }

  // ---------------------------------------------------------------------
  // Verb guard

  /** With no verb annotation in the doc text the wrapper's guard accepts every verb. */
  lemma GuardWithoutAnnotation(text: string, requestVerb: string)
    requires forall j: nat, w :: !Annotations.VerbAt(text, j, w)
    ensures VerbGuard(Annotations.RequestMethod(text), requestVerb) == None
  {
    Annotations.RequestMethodAbsent(text);
  }

  /**
   With a verb annotation the guard follows the leftmost one: it accepts
   exactly that verb (every verb for `"method": ""`) and answers any other
   with 406 `bad method`.
   */
  lemma GuardWithAnnotation(text: string, i: nat, w: string, requestVerb: string)
    requires Annotations.VerbAt(text, i, w)
    requires forall j: nat, v :: j < i ==> !Annotations.VerbAt(text, j, v)
    ensures VerbGuard(Annotations.RequestMethod(text), requestVerb) ==
              if w == requestVerb || w == "" then None else Some(HttpError(406, "bad method"))
  {
    Annotations.RequestMethodLeftmost(text, i, w);
  }

  // ---------------------------------------------------------------------
  // The whole file

  /** The handler loop: handler `k` is the receiver type `k`'s handler built from its methods in the table. */
  lemma EmitHandlersSpec(recvs: seq<string>, methods: Groups.Index<FuncDecl>, structs: Groups.Index<Field>)
    requires TablesDocumented(methods) && TablesTagged(structs) && EmitHandlers(recvs, methods, structs).Success?
    ensures var hs := EmitHandlers(recvs, methods, structs).value;
            && |hs| == |recvs|
            && forall k :: 0 <= k < |recvs| ==>
                 && hs[k].recv == recvs[k]
                 && EmitHandler(recvs[k], Groups.Get(methods, recvs[k]), structs) == Success(hs[k])
  {
    var hs := EmitHandlers(recvs, methods, structs).value;
    forall k | 0 <= k < |recvs|
      ensures hs[k].recv == recvs[k]
    {
      HandlerRecv(recvs[k], Groups.Get(methods, recvs[k]), structs);
    }
  }

  /** A handler is for the receiver type it was built for. */
  lemma HandlerRecv(recv: string, ms: seq<FuncDecl>, structs: Groups.Index<Field>)
    requires AllDocumented(ms) && TablesTagged(structs) && EmitHandler(recv, ms, structs).Success?
    ensures EmitHandler(recv, ms, structs).value.recv == recv
  {
  }

  /** The receiver types of the method table are exactly the types with API methods. */
  lemma SelectedReceivers(decls: seq<Decl>)
    requires Selection.Select(decls).Success?
    ensures forall t :: t in Groups.Keys(Selection.Select(decls).value.methods) <==> Selection.ApiMethods(decls, t) != []
    ensures forall t :: Groups.Get(Selection.Select(decls).value.methods, t) == Selection.ApiMethods(decls, t)
  {
    var reg := Selection.Select(decls).value;
    Selection.SelectWellFormed(decls);
    Selection.SelectMethodsByReceiver(decls);
    forall t
      ensures t in Groups.Keys(reg.methods) <==> Selection.ApiMethods(decls, t) != []
    {
      Groups.HasIffNonEmpty(reg.methods, t);
    }
  }

  /**
   A generated file has one handler per receiver type that has API methods,
   in the order of each type's first API method, and each handler is built
   from exactly the API methods on that type, in declaration order.
   */
  lemma GenerateSpec(file: File)
    requires Generate(file).Success?
    ensures Selection.Select(file.decls).Success?
    ensures var reg := Selection.Select(file.decls).value;
            var u := Generate(file).value;
            var keys := Groups.Keys(reg.methods);
            && u.pkg == file.pkg
            && |u.handlers| == |keys|
            && (forall t :: t in keys <==> Selection.ApiMethods(file.decls, t) != [])
            && TablesTagged(reg.structs)
            && forall k :: 0 <= k < |keys| ==>
                 && u.handlers[k].recv == keys[k]
                 && AllDocumented(Selection.ApiMethods(file.decls, keys[k]))
                 && EmitHandler(keys[k], Selection.ApiMethods(file.decls, keys[k]), reg.structs) == Success(u.handlers[k])
  {
    var reg := Selection.Select(file.decls).value;
    Selection.SelectWellFormed(file.decls);
    WellFormedTables(reg);
    SelectedReceivers(file.decls);
    EmitHandlersSpec(Groups.Keys(reg.methods), reg.methods, reg.structs);
  }

  /** An API function without a receiver aborts the whole run. */
  lemma GenerateFailsOnReceiverless(file: File)
    requires Selection.HasReceiverlessApiFunction(file.decls)
    ensures Generate(file).Failure?
  {
    Selection.SelectFailsIff(file.decls);
  }
  // ---------------------------------------------------------------------
  // When the whole run aborts

  /** The doc comment of `m` has a line without a quoted `/` path. */
  ghost predicate LacksRoute(m: FuncDecl) {
    m.doc.Some? && exists k :: 0 <= k < |m.doc.value.lines| && Annotations.UrlFromLine(m.doc.value.lines[k]).Failure?
  }

  /** Some parameter type in `params` has a registered field, in the table, that cannot be checked. */
  ghost predicate ParamsFail(params: seq<string>, structs: Groups.Index<Field>) {
    exists p :: p in params && FieldFailsIn(Groups.Get(structs, p), p)
  }

  /** Some parameter of `m` has a type with a registered field, in the declarations, that cannot be checked. */
  ghost predicate HasFailingField(decls: seq<Decl>, m: FuncDecl) {
    exists p :: p in m.params && FieldFailsIn(Selection.StructFields(decls, p), p)
  }

  /** Reading a method's route fails exactly when a line of its doc comment has none. */
  lemma RouteOfFails(m: FuncDecl)
    requires m.doc.Some?
    ensures RouteOf(m).Failure? <==> LacksRoute(m)
  {
    Annotations.UrlFromLinesSucceedsIff(m.doc.value.lines, "");
  }

  lemma EmitWrapperFailureCause(recv: string, m: FuncDecl, structs: Groups.Index<Field>)
    requires TablesTagged(structs) && EmitWrapper(recv, m, structs).Failure?
    ensures ParamsFail(m.params, structs)
  {
    var reg := RegisteredParams(m.params, structs);
    RegisteredParamsSpec(m.params, structs);
    assert ParamBlocks(m.params, structs).Failure?;
    var q :| 0 <= q < |reg| && ParamBlockFor(reg[q], structs).Failure?;
    assert reg[q] in reg;
    ParamBlockForFails(reg[q], structs);
  }

  lemma EmitWrapperFailsOnParam(recv: string, m: FuncDecl, structs: Groups.Index<Field>, p: string)
    requires Groups.Valid(structs) && TablesTagged(structs)
    requires p in m.params && FieldFailsIn(Groups.Get(structs, p), p)
    ensures EmitWrapper(recv, m, structs).Failure?
  {
    var reg := RegisteredParams(m.params, structs);
    RegisteredParamsSpec(m.params, structs);
    Groups.HasIffNonEmpty(structs, p);
    assert p in reg;
    var q :| 0 <= q < |reg| && reg[q] == p;
    ParamBlockForFails(p, structs);
    assert ParamBlockFor(reg[q], structs).Failure?;
    assert ParamBlocks(m.params, structs).Failure?;
  }

  /**
   A wrapper aborts exactly when one of the method's parameters names a type
   with a registered field that cannot be checked; types of other parameters
   are never looked at.
   */
  lemma EmitWrapperFails(recv: string, m: FuncDecl, structs: Groups.Index<Field>)
    requires Groups.Valid(structs) && TablesTagged(structs)
    ensures EmitWrapper(recv, m, structs).Failure? <==> ParamsFail(m.params, structs)
  {
    if EmitWrapper(recv, m, structs).Failure? {
      EmitWrapperFailureCause(recv, m, structs);
    }
    if ParamsFail(m.params, structs) {
      var p :| p in m.params && FieldFailsIn(Groups.Get(structs, p), p);
      EmitWrapperFailsOnParam(recv, m, structs, p);
    }
  }

  /** A receiver's output aborts exactly when some method lacks a route or its wrapper aborts. */
  lemma EmitHandlerFails(recv: string, ms: seq<FuncDecl>, structs: Groups.Index<Field>)
    requires AllDocumented(ms) && TablesTagged(structs)
    ensures EmitHandler(recv, ms, structs).Failure? <==>
              exists k :: 0 <= k < |ms| && (RouteOf(ms[k]).Failure? || EmitWrapper(recv, ms[k], structs).Failure?)
  {
    EmitCasesFails(ms);
    if EmitWrappers(recv, ms, structs).Failure? {
      var k :| 0 <= k < |ms| && EmitWrapper(recv, ms[k], structs).Failure?;
    }
    if exists k :: 0 <= k < |ms| && EmitWrapper(recv, ms[k], structs).Failure? {
      var k :| 0 <= k < |ms| && EmitWrapper(recv, ms[k], structs).Failure?;
      assert EmitWrappers(recv, ms, structs).Failure?;
    }
  }

  /** The receiver loop aborts exactly when one receiver's output aborts. */
  lemma EmitHandlersFails(recvs: seq<string>, methods: Groups.Index<FuncDecl>, structs: Groups.Index<Field>)
    requires TablesDocumented(methods) && TablesTagged(structs)
    ensures EmitHandlers(recvs, methods, structs).Failure? <==>
              exists k :: 0 <= k < |recvs| && EmitHandler(recvs[k], Groups.Get(methods, recvs[k]), structs).Failure?
  {
    if exists k :: 0 <= k < |recvs| && EmitHandler(recvs[k], Groups.Get(methods, recvs[k]), structs).Failure? {
      var k :| 0 <= k < |recvs| && EmitHandler(recvs[k], Groups.Get(methods, recvs[k]), structs).Failure?;
      assert EmitHandlers(recvs, methods, structs).Failure?;
    }
  }

  /** The facts about a successful selection that the abort lemmas use. */
  lemma SelectedTables(decls: seq<Decl>)
    requires Selection.Select(decls).Success?
    ensures var reg := Selection.Select(decls).value;
            && Groups.Valid(reg.structs) && TablesDocumented(reg.methods) && TablesTagged(reg.structs)
            && (forall t :: t in Groups.Keys(reg.methods) <==> Selection.ApiMethods(decls, t) != [])
            && (forall t :: Groups.Get(reg.methods, t) == Selection.ApiMethods(decls, t))
            && (forall s :: Groups.Get(reg.structs, s) == Selection.StructFields(decls, s))
  {
    var reg := Selection.Select(decls).value;
    Selection.SelectWellFormed(decls);
    WellFormedTables(reg);
    SelectedReceivers(decls);
    Selection.SelectFieldsByStruct(decls);
  }

  /** The receiver loop over the selected tables aborts. */
  ghost predicate HandlersFail(decls: seq<Decl>)
    requires Selection.Select(decls).Success?
  {
    var reg := Selection.Select(decls).value;
    && TablesDocumented(reg.methods) && TablesTagged(reg.structs)
    && EmitHandlers(Groups.Keys(reg.methods), reg.methods, reg.structs).Failure?
  }

  /** After a successful selection, the run aborts exactly when the receiver loop does. */
  lemma GenerateAfterSelect(file: File)
    requires Selection.Select(file.decls).Success?
    ensures Generate(file).Failure? <==> HandlersFail(file.decls)
  {
    var reg := Selection.Select(file.decls).value;
    Selection.SelectWellFormed(file.decls);
    WellFormedTables(reg);
  }

  /** Some API method on a pointer receiver lacks a route or takes a parameter with a field that cannot be checked. */
  ghost predicate SomeMethodAborts(decls: seq<Decl>) {
    exists t, m :: m in Selection.ApiMethods(decls, t) && (LacksRoute(m) || HasFailingField(decls, m))
  }

  /** An API method that lacks a route, or takes a parameter with a field that cannot be checked, stops the receiver loop. */
  lemma HandlersFailOnMethod(decls: seq<Decl>, t: string, m: FuncDecl)
    requires Selection.Select(decls).Success?
    requires m in Selection.ApiMethods(decls, t)
    requires LacksRoute(m) || HasFailingField(decls, m)
    ensures HandlersFail(decls)
  {
    var reg := Selection.Select(decls).value;
    SelectedTables(decls);
    var keys := Groups.Keys(reg.methods);
    var ms := Groups.Get(reg.methods, t);
    assert t in keys;
    var k :| 0 <= k < |keys| && keys[k] == t;
    var j :| 0 <= j < |ms| && ms[j] == m;
    assert AllDocumented(ms);
    if LacksRoute(m) {
      RouteOfFails(m);
    } else {
      ParamsFailSelected(decls, m);
      EmitWrapperFails(t, m, reg.structs);
    }
    EmitHandlerFails(t, ms, reg.structs);
    EmitHandlersFails(keys, reg.methods, reg.structs);
  }

  /** Which method of a receiver stopped its output. */
  lemma EmitHandlerFailureCause(recv: string, ms: seq<FuncDecl>, structs: Groups.Index<Field>)
    requires Groups.Valid(structs) && AllDocumented(ms) && TablesTagged(structs)
    requires EmitHandler(recv, ms, structs).Failure?
    ensures exists j :: 0 <= j < |ms| && (LacksRoute(ms[j]) || ParamsFail(ms[j].params, structs))
  {
    EmitHandlerFails(recv, ms, structs);
    var j :| 0 <= j < |ms| && (RouteOf(ms[j]).Failure? || EmitWrapper(recv, ms[j], structs).Failure?);
    if RouteOf(ms[j]).Failure? {
      RouteOfFails(ms[j]);
    } else {
      EmitWrapperFails(recv, ms[j], structs);
    }
  }

  /** Over the selected field table, a failing parameter field is one of the declarations. */
  lemma ParamsFailSelected(decls: seq<Decl>, m: FuncDecl)
    requires Selection.Select(decls).Success?
    ensures ParamsFail(m.params, Selection.Select(decls).value.structs) <==> HasFailingField(decls, m)
  {
    Selection.SelectFieldsByStruct(decls);
  }

  /** Which method stopped the output of one selected receiver type. */
  lemma ReceiverFailureCause(decls: seq<Decl>, t: string)
    requires Selection.Select(decls).Success?
    requires var reg := Selection.Select(decls).value;
             && TablesTagged(reg.structs) && AllDocumented(Groups.Get(reg.methods, t))
             && EmitHandler(t, Groups.Get(reg.methods, t), reg.structs).Failure?
    ensures SomeMethodAborts(decls)
  {
    var reg := Selection.Select(decls).value;
    var ms := Groups.Get(reg.methods, t);
    EmitHandlerFailureCause(t, ms, reg.structs);
    var j :| 0 <= j < |ms| && (LacksRoute(ms[j]) || ParamsFail(ms[j].params, reg.structs));
    Selection.SelectMethodsByReceiver(decls);
    ParamsFailSelected(decls, ms[j]);
    assert ms[j] in Selection.ApiMethods(decls, t);
  }

  /** Which method stopped a receiver loop over the selected tables. */
  lemma HandlersFailureCause(decls: seq<Decl>)
    requires Selection.Select(decls).Success? && HandlersFail(decls)
    ensures SomeMethodAborts(decls)
  {
    var reg := Selection.Select(decls).value;
    var keys := Groups.Keys(reg.methods);
    EmitHandlersFails(keys, reg.methods, reg.structs);
    var k :| 0 <= k < |keys| && EmitHandler(keys[k], Groups.Get(reg.methods, keys[k]), reg.structs).Failure?;
    ReceiverFailureCause(decls, keys[k]);
  }

  /** Some aborting API method stops the receiver loop over the selected tables. */
  lemma HandlersFailOnSomeMethod(decls: seq<Decl>)
    requires Selection.Select(decls).Success? && SomeMethodAborts(decls)
    ensures HandlersFail(decls)
  {
    var t, m :| m in Selection.ApiMethods(decls, t) && (LacksRoute(m) || HasFailingField(decls, m));
    HandlersFailOnMethod(decls, t, m);
  }

  /** After a successful selection, the run aborts exactly when some API method does. */
  lemma GenerateFailsAfterSelect(file: File)
    requires Selection.Select(file.decls).Success?
    ensures Generate(file).Failure? <==> SomeMethodAborts(file.decls)
  {
    GenerateAfterSelect(file);
    if HandlersFail(file.decls) {
      HandlersFailureCause(file.decls);
    }
    if SomeMethodAborts(file.decls) {
      HandlersFailOnSomeMethod(file.decls);
    }
  }

  /**
   The run aborts exactly when an API function has no receiver, or an API
   method on a pointer receiver has a doc line without a route or takes a
   parameter whose type has a registered field that cannot be checked
   (embedded, not a plain identifier, or `enum=` without `default=`). A
   struct that no API method takes as a parameter never aborts the run.
   */
  lemma GenerateFailsIff(file: File)
    ensures Generate(file).Failure? <==>
              Selection.HasReceiverlessApiFunction(file.decls) || SomeMethodAborts(file.decls)
  {
    Selection.SelectFailsIff(file.decls);
    if Selection.Select(file.decls).Success? {
      GenerateFailsAfterSelect(file);
    }
  }
}

=== FILE: rules.dfy ===
/**
 The validator rule language inside an `apivalidator` struct tag, read the way
 the generator reads it: each rule `name=value` is found with the regexp
 `name=[^,]*` (leftmost match, value up to the next comma), and its value is
 piece 1 of that match split on `=`. A rule is present when `name=` occurs
 anywhere in the tag; a bare word such as `required` is not a rule.
 */
module Rules {
  import opened Wrappers
  import opened Text

  /** The names of the rules the generator looks for. */
  const RuleNames: seq<string> := ["paramname", "required", "min", "max", "enum", "default"]

  /** `regexp.MustCompile(key + "[^,]*").FindString(tag)`: the leftmost `key` and the comma-free text after it, or `""`. */
  function RuleMatch(tag: string, key: string): string {
    MatchFrom(tag, key, Find(tag, key))
  }

  /** The rule regexp's match given where the key was found: the key and the comma-free text after it. */
  function MatchFrom(tag: string, key: string, found: Option<nat>): string
    requires found.Some? ==> found.value + |key| <= |tag|
  {
    if found.None? then "" else key + PrefixWithout(tag[found.value + |key|..], ',')
  }

  /**
   `regexp.MustCompile("=").Split(m, -1)[1]` where `m` is the match for
   `name=`; `None` where piece 1 does not exist, the generator's index panic.
   */
  function RuleValue(tag: string, name: string): Option<string> {
    var parts := Split(RuleMatch(tag, name + "="), '=');
    if |parts| < 2 then None else Some(parts[1])
  }

  /** The rules of one field, as the generator reads them from the tag. */
  datatype RuleSet = RuleSet(
    paramName: Option<string>,
    required: bool,
    min: Option<string>,
    max: Option<string>,
    enumValues: Option<string>,
    dflt: Option<string>)

  /** All the lookups the generator makes on one `apivalidator` tag. */
  function ParseRules(tag: string): RuleSet {
    RuleSet(
      RuleValue(tag, "paramname"),
      Contains(tag, "required="),
      RuleValue(tag, "min"),
      RuleValue(tag, "max"),
      RuleValue(tag, "enum"),
      RuleValue(tag, "default"))
  }

  /**
   A rule's value is there exactly when `name=` occurs in the tag, and it is
   the text after the leftmost `name=`, cut at the first comma and then at the
   first `=`.
   */
  lemma RuleValueSpec(tag: string, name: string)
    requires '=' !in name
    ensures RuleValue(tag, name).Some? <==> Contains(tag, name + "=")
    ensures Contains(tag, name + "=") ==>
              var i := Find(tag, name + "=").value;
              RuleValue(tag, name) == Some(PrefixWithout(PrefixWithout(tag[i + |name| + 1..], ','), '='))
  {
    var key := name + "=";
    match Find(tag, key) {
      case None =>
        assert RuleMatch(tag, key) == "";
        assert Split("", '=') == [""];
      case Some(i) =>
        var x := PrefixWithout(tag[i + |key|..], ',');
        assert RuleMatch(tag, key) == name + ['='] + x;
        SplitAtSeparator(name, '=', x);
        SplitWithoutSeparator(name, '=');
        SplitFirstPiece(x, '=');
        assert Split(name + ['='] + x, '=')[1] == Split(x, '=')[0];
    }
  }

  /** The rule names hold neither `=` nor `,`. */
  lemma RuleNamesClean()
    ensures forall n :: n in RuleNames ==> '=' !in n && ',' !in n
  {
  }

  // ---------------------------------------------------------------------
  // Tags as token lists

  /** One comma-separated token of a rule tag: a bare word or a `key=value` pair. */
  datatype Token = Flag(word: string) | Pair(key: string, value: string)

  function RenderToken(t: Token): string {
    match t
    case Flag(w) => w
    case Pair(k, v) => k + "=" + v
  }

  /** The tag text of a token list: the tokens joined by commas. */
  function RenderTag(ts: seq<Token>): string
    decreases |ts|
  {
    if |ts| == 0 then ""
    else if |ts| == 1 then RenderToken(ts[0])
    else RenderToken(ts[0]) + "," + RenderTag(ts[1..])
  }

  /** Text free of the two rule delimiters. */
  predicate Clean(s: string) {
    ',' !in s && '=' !in s
  }

  /** `n` is a suffix of `k`. */
  predicate IsSuffix(n: string, k: string) {
    |n| <= |k| && k[|k| - |n|..] == n
  }

  /**
   A token the rule regexps cannot misread: delimiter-free parts, and a pair
   key that does not end in a rule name unless it is that name (a key such as
   `admin` would be read as a `min` rule).
   */
  predicate TokenOk(t: Token) {
    match t
    case Flag(w) => Clean(w)
    case Pair(k, v) => Clean(k) && Clean(v) && forall n :: n in RuleNames && IsSuffix(n, k) ==> n == k
  }

  predicate TokensOk(ts: seq<Token>) {
    forall i :: 0 <= i < |ts| ==> TokenOk(ts[i])
  }

  /** The value of the first pair with key `n`. */
  function PairValue(ts: seq<Token>, n: string): (r: Option<string>)
    ensures r.Some? ==> Pair(n, r.value) in ts
    ensures r.None? ==> forall v :: Pair(n, v) !in ts
    decreases |ts|
  {
    if |ts| == 0 then None
    else if ts[0].Pair? && ts[0].key == n then Some(ts[0].value)
    else
      var r := PairValue(ts[1..], n);
      assert forall v :: Pair(n, v) in ts ==> Pair(n, v) in ts[1..];
      r
  }

  /** The rule set a token list denotes: each rule is its first pair. */
  function RulesOf(ts: seq<Token>): RuleSet {
    RuleSet(
      PairValue(ts, "paramname"),
      PairValue(ts, "required").Some?,
      PairValue(ts, "min"),
      PairValue(ts, "max"),
      PairValue(ts, "enum"),
      PairValue(ts, "default"))
  }

  /** No two pairs share a key. */
  predicate UniqueKeys(ts: seq<Token>) {
    forall i, j :: 0 <= i < j < |ts| && ts[i].Pair? && ts[j].Pair? ==> ts[i].key != ts[j].key
  }

  // ---------------------------------------------------------------------
  // Parsing a rendered tag

  /** The match found at index `i` is the key followed by the comma-free text after it. */
  lemma RuleMatchAt(tag: string, key: string, i: nat)
    requires Find(tag, key) == Some(i)
    ensures i + |key| <= |tag|
    ensures RuleMatch(tag, key) == key + PrefixWithout(tag[i + |key|..], ',')
  {
    FindBound(tag, key, i);
  }

  /** Two texts whose leftmost matches of the key are followed by the same comma-free text give the same match. */
  lemma RuleMatchAtSame(s: string, t: string, key: string, i: nat, j: nat)
    requires Find(s, key) == Some(i) && Find(t, key) == Some(j)
    requires i + |key| <= |s| && j + |key| <= |t|
    requires PrefixWithout(s[i + |key|..], ',') == PrefixWithout(t[j + |key|..], ',')
    ensures RuleMatch(s, key) == RuleMatch(t, key)
  {
    RuleMatchAt(s, key, i);
    RuleMatchAt(t, key, j);
  }

  /** When the first part holds the key, the match lies in the first part. */
  lemma RuleMatchAcrossFirst(a: string, b: string, key: string)
    requires ',' !in key && Contains(a, key)
    ensures RuleMatch(a + [','] + b, key) == RuleMatch(a, key)
  {
    var i := Find(a, key).value;
    FindBound(a, key, i);
    FindAcrossInFirst(a, ',', b, key);
    DropBeforeSeparator(a, ',', b, i + |key|);
    PrefixWithoutStopsAtSeparator(a[i + |key|..], ',', b);
    RuleMatchAtSame(a + [','] + b, a, key, i, i);
  }

  /** When only the second part holds the key, the match is the second part's. */
  lemma RuleMatchAcrossSecond(a: string, b: string, key: string)
    requires ',' !in key && !Contains(a, key) && Contains(b, key)
    ensures RuleMatch(a + [','] + b, key) == RuleMatch(b, key)
  {
    var s := a + [','] + b;
    var j := Find(b, key).value;
    var k := |a| + 1 + j;
    FindBound(b, key, j);
    FindAcrossInSecond(a, ',', b, key);
    DropPastSeparator(a, ',', b, j + |key|);
    assert s[k + |key|..] == b[j + |key|..];
    RuleMatchAtSame(s, b, key, k, j);
  }

  /** The rule regexp never matches across a comma: it reads the first token that holds the key, else the rest. */
  lemma RuleMatchAcross(a: string, b: string, key: string)
    requires ',' !in key
    ensures RuleMatch(a + [','] + b, key) == if Contains(a, key) then RuleMatch(a, key) else RuleMatch(b, key)
  {
    if Contains(a, key) {
      RuleMatchAcrossFirst(a, b, key);
    } else if Contains(b, key) {
      RuleMatchAcrossSecond(a, b, key);
    } else {
      FindAcrossSeparator(a, ',', b, key);
    }
  }

  /** Rule values of a comma-joined tag come from the first part when it holds the rule. */
  lemma RuleValueAcross(a: string, b: string, n: string)
    requires ',' !in n
    ensures RuleValue(a + [','] + b, n) == if Contains(a, n + "=") then RuleValue(a, n) else RuleValue(b, n)
  {
    RuleMatchAcross(a, b, n + "=");
  }

  /** An occurrence of `n=` in `k=v` with delimiter-free `k` and `v` ends at the `=` after `k`. */
  lemma OccurrenceInPair(k: string, v: string, n: string, j: nat)
    requires Clean(k) && Clean(v)
    requires OccursAt(k + "=" + v, n + "=", j)
    ensures j + |n| == |k| && IsSuffix(n, k)
  {
    var s := k + "=" + v;
    var e := j + |n|;
    assert s[j..j + |n| + 1] == n + "=";
    assert s[j..j + |n| + 1][|n|] == '=';
    assert s[e] == '=';
    assert k[j..] == s[j..j + |n| + 1][..|n|];
  }

  /** An occurrence of `n=` in a bare word is impossible: the word holds no `=`. */
  lemma NoOccurrenceInFlag(w: string, n: string, j: nat)
    requires Clean(w)
    ensures !OccursAt(w, n + "=", j)
  {
    if j + |n| + 1 <= |w| {
      assert w[j + |n|] in w;
      assert w[j..j + |n| + 1][|n|] == w[j + |n|];
      assert (n + "=")[|n|] == '=';
    }
  }

  /** A well-formed token holds `n=` exactly when it is the pair for rule `n`. */
  lemma TokenContains(t: Token, n: string)
    requires TokenOk(t) && n in RuleNames
    ensures Contains(RenderToken(t), n + "=") <==> t.Pair? && t.key == n
  {
    var s := RenderToken(t);
    ContainsIff(s, n + "=");
    match t {
      case Flag(w) =>
        forall j: nat
          ensures !OccursAt(s, n + "=", j)
        {
          NoOccurrenceInFlag(w, n, j);
        }
      case Pair(k, v) =>
        if k == n {
          assert OccursAt(s, n + "=", 0);
        } else {
          forall j: nat
            ensures !OccursAt(s, n + "=", j)
          {
            if OccursAt(s, n + "=", j) {
              OccurrenceInPair(k, v, n, j);
            }
          }
        }
    }
  }

  /** The rule value read from a single well-formed token. */
  lemma RuleValueOfToken(t: Token, n: string)
    requires TokenOk(t) && n in RuleNames
    ensures RuleValue(RenderToken(t), n) == if t.Pair? && t.key == n then Some(t.value) else None
  {
    RuleNamesClean();
    TokenContains(t, n);
    RuleValueSpec(RenderToken(t), n);
    if t.Pair? && t.key == n {
      var s := RenderToken(t);
      assert OccursAt(s, n + "=", 0);
      FindLeftmost(s, n + "=", 0);
      assert s[|n| + 1..] == t.value;
      PrefixWithoutAll(t.value, ',');
      PrefixWithoutAll(t.value, '=');
    }
  }

  /** A rendered tag holds `n=` exactly when some token is the pair for rule `n`. */
  lemma {:induction false} RenderedContains(ts: seq<Token>, n: string)
    requires TokensOk(ts) && n in RuleNames
    ensures Contains(RenderTag(ts), n + "=") <==> PairValue(ts, n).Some?
    decreases |ts|
  {
    RuleNamesClean();
    RuleValueSpec(RenderTag(ts), n);
    RenderedRuleValue(ts, n);
  }

  /** Reading rule `n` from a rendered tag gives the value of the first pair for `n`. */
  lemma {:induction false} RenderedRuleValue(ts: seq<Token>, n: string)
    requires TokensOk(ts) && n in RuleNames
    ensures RuleValue(RenderTag(ts), n) == PairValue(ts, n)
    decreases |ts|
  {
    RuleNamesClean();
    if |ts| == 0 {
      RuleValueSpec("", n);
      assert !OccursAt("", n + "=", 0);
      ContainsIff("", n + "=");
    } else if |ts| == 1 {
      RuleValueOfToken(ts[0], n);
    } else {
      var head := RenderToken(ts[0]);
      assert TokensOk(ts[1..]) by {
        forall i | 0 <= i < |ts[1..]|
          ensures TokenOk(ts[1..][i])
        {
          assert ts[1..][i] == ts[i + 1];
        }
      }
      RenderedRuleValue(ts[1..], n);
      assert RenderTag(ts) == head + [','] + RenderTag(ts[1..]);
      RuleValueAcross(head, RenderTag(ts[1..]), n);
      TokenContains(ts[0], n);
      RuleValueOfToken(ts[0], n);
    }
  }

  /**
   Parsing a well-formed rendered tag recovers the rule set of its tokens:
   each rule is the first pair with its name, and `required` counts only as a
   pair.
   */
  lemma ParseRendered(ts: seq<Token>)
    requires TokensOk(ts)
    ensures ParseRules(RenderTag(ts)) == RulesOf(ts)
  {
    RenderedRuleValue(ts, "paramname");
    RenderedContains(ts, "required");
    assert "required" + "=" == "required=";
    RenderedRuleValue(ts, "min");
    RenderedRuleValue(ts, "max");
    RenderedRuleValue(ts, "enum");
    RenderedRuleValue(ts, "default");
  }

  /** With unique keys the first pair for `n` is the only one. */
  lemma PairValueUnique(ts: seq<Token>, n: string, v: string)
    requires UniqueKeys(ts) && Pair(n, v) in ts
    ensures PairValue(ts, n) == Some(v)
  {
    var r := PairValue(ts, n);
    var i :| 0 <= i < |ts| && ts[i] == Pair(n, v);
    var j :| 0 <= j < |ts| && ts[j] == Pair(n, r.value);
    assert i == j;
  }

  /** Reordering tokens with distinct keys does not change the value of any pair. */
  lemma PairValuePermutation(ts1: seq<Token>, ts2: seq<Token>, n: string)
    requires multiset(ts1) == multiset(ts2) && UniqueKeys(ts1)
    ensures PairValue(ts1, n) == PairValue(ts2, n)
  {
    var r1 := PairValue(ts1, n);
    var r2 := PairValue(ts2, n);
    if r1.Some? {
      assert Pair(n, r1.value) in multiset(ts1);
    }
    if r2.Some? {
      assert Pair(n, r2.value) in multiset(ts2);
      assert Pair(n, r2.value) in ts1;
      PairValueUnique(ts1, n, r2.value);
    }
  }

  /**
   The rules do not depend on the order of the tokens: two orderings of the
   same tokens with distinct keys parse to the same rule set.
   */
  lemma ParseIgnoresTokenOrder(ts1: seq<Token>, ts2: seq<Token>)
    requires TokensOk(ts1) && TokensOk(ts2)
    requires multiset(ts1) == multiset(ts2) && UniqueKeys(ts1)
    ensures ParseRules(RenderTag(ts1)) == ParseRules(RenderTag(ts2))
  {
    ParseRendered(ts1);
    ParseRendered(ts2);
    PairValuePermutation(ts1, ts2, "paramname");
    PairValuePermutation(ts1, ts2, "required");
    PairValuePermutation(ts1, ts2, "min");
    PairValuePermutation(ts1, ts2, "max");
    PairValuePermutation(ts1, ts2, "enum");
    PairValuePermutation(ts1, ts2, "default");
  }
}

=== FILE: selection.dfy ===
/**
 Declaration selection: one pass over the file's declarations that collects
 the API methods, grouped by the type of their pointer receiver, and the
 fields that carry a usable struct tag, grouped by struct name. Both groupings
 keep declaration order; receiver types keep the order of their first API
 method.
 */
module Selection {
  import opened Wrappers
  import opened Text
  import opened Ast
  import opened Diagnostics
  import Groups

  /** The doc-comment prefix that marks a method as part of the API. */
  const ApiMarker := "apigen:api"

  /** The two tables built by the pass: methods by receiver type, fields by struct name. */
  datatype Registry = Registry(methods: Groups.Index<FuncDecl>, structs: Groups.Index<Field>)

  const EmptyRegistry := Registry([], [])

  predicate IsApiMethod(f: FuncDecl) {
    HasPrefix(DocText(f.doc), ApiMarker)
  }

  /** A field that belongs to its struct's table: tagged, not excluded, and with a validator or json key. */
  predicate Registered(f: Field) {
    && f.tag.Some?
    && Ast.Get(f.tag.value, "cgen") != "-"
    && (Lookup(f.tag.value, "apivalidator").Some? || Lookup(f.tag.value, "json").Some?)
  }

  /** The tables are valid indexes, every method has a doc comment and every field a tag. */
  ghost predicate WellFormed(reg: Registry) {
    && Groups.Valid(reg.methods)
    && Groups.Valid(reg.structs)
    && (forall t, m :: m in Groups.Get(reg.methods, t) ==> m.doc.Some?)
    && (forall s, f :: f in Groups.Get(reg.structs, s) ==> f.tag.Some?)
  }

  /**
   The body of the field loop for one field: the exclusion tag is tested
   first, and a field with both a validator and a json key is added once.
   */
  function AddField(structs: Groups.Index<Field>, name: string, f: Field): (r: Groups.Index<Field>)
    requires Groups.Valid(structs)
    ensures Groups.Valid(r)
    ensures Groups.Get(r, name) == Groups.Get(structs, name) + (if Registered(f) then [f] else [])
    ensures forall k :: k != name ==> Groups.Get(r, k) == Groups.Get(structs, k)
  {
    match f.tag
    case None => structs
    case Some(tag) =>
      if Ast.Get(tag, "cgen") == "-" then structs
      else if Lookup(tag, "apivalidator").Some? then Groups.Add(structs, name, f)
      else if Lookup(tag, "json").Some? then Groups.Add(structs, name, f)
      else structs
  }

  /** The field loop over one struct type. */
  function AddFields(structs: Groups.Index<Field>, name: string, fields: seq<Field>): (r: Groups.Index<Field>)
    requires Groups.Valid(structs)
    ensures Groups.Valid(r)
    decreases |fields|
  {
    if |fields| == 0 then structs
    else AddField(AddFields(structs, name, fields[..|fields| - 1]), name, fields[|fields| - 1])
  }

  /** The spec loop over one general declaration: only struct types contribute. */
  function AddSpecs(structs: Groups.Index<Field>, specs: seq<Spec>): (r: Groups.Index<Field>)
    requires Groups.Valid(structs)
    ensures Groups.Valid(r)
    decreases |specs|
  {
    if |specs| == 0 then structs
    else
      var before := AddSpecs(structs, specs[..|specs| - 1]);
      match specs[|specs| - 1]
      case StructSpec(name, fields) => AddFields(before, name, fields)
      case _ => before
  }

  /** One iteration of the declaration loop. */
  function AddDecl(reg: Registry, d: Decl): Result<Registry, GenError>
    requires Groups.Valid(reg.methods) && Groups.Valid(reg.structs)
  {
    match d
    case Func(f) =>
      if !IsApiMethod(f) then Success(reg)
      else
        match f.recv {
          case NoReceiver => Failure(ReceiverlessApiFunction(f.name))
          case ValueReceiver(_) => Success(reg)
          case PointerReceiver(t) => Success(reg.(methods := Groups.Add(reg.methods, t, f)))
        }
    case Gen(specs) => Success(reg.(structs := AddSpecs(reg.structs, specs)))
  }

  /** `getMethodsAndStructs`: the tables for a whole file, or the panic that stops it. */
  function Select(decls: seq<Decl>): (r: Result<Registry, GenError>)
    ensures r.Success? ==> Groups.Valid(r.value.methods) && Groups.Valid(r.value.structs)
    decreases |decls|
  {
    if |decls| == 0 then Success(EmptyRegistry)
    else
      var reg :- Select(decls[..|decls| - 1]);
      AddDecl(reg, decls[|decls| - 1])
  }

  // Reference definitions: what each table entry should hold, key by key.

  /** The API methods of the declarations whose receiver is a pointer to `t`, in order. */
  function ApiMethods(decls: seq<Decl>, t: string): seq<FuncDecl>
    decreases |decls|
  {
    if |decls| == 0 then []
    else
      var d := decls[|decls| - 1];
      ApiMethods(decls[..|decls| - 1], t)
        + (if d.Func? && IsApiMethod(d.func) && d.func.recv == PointerReceiver(t) then [d.func] else [])
  }

  /** The registered fields in a field list, in order. */
  function RegisteredFields(fields: seq<Field>): seq<Field>
    decreases |fields|
  {
    if |fields| == 0 then []
    else
      RegisteredFields(fields[..|fields| - 1])
        + (if Registered(fields[|fields| - 1]) then [fields[|fields| - 1]] else [])
  }

  /** The registered fields of every struct spec named `s` among the specs. */
  function SpecFields(specs: seq<Spec>, s: string): seq<Field>
    decreases |specs|
  {
    if |specs| == 0 then []
    else
      var sp := specs[|specs| - 1];
      SpecFields(specs[..|specs| - 1], s)
        + (if sp.StructSpec? && sp.name == s then RegisteredFields(sp.fields) else [])
  }

  /** The registered fields of every struct named `s` in the declarations, in order. */
  function StructFields(decls: seq<Decl>, s: string): seq<Field>
    decreases |decls|
  {
    if |decls| == 0 then []
    else
      var d := decls[|decls| - 1];
      StructFields(decls[..|decls| - 1], s) + (if d.Gen? then SpecFields(d.specs, s) else [])
  }

  /** Some API function in the declarations has no receiver. */
  predicate HasReceiverlessApiFunction(decls: seq<Decl>) {
    exists i :: 0 <= i < |decls| && decls[i].Func? && IsApiMethod(decls[i].func) && decls[i].func.recv.NoReceiver?
  }

  // Properties of the pass.

  /** The field loop appends exactly the registered fields, under the struct's own name. */
  lemma {:induction false} AddFieldsAppendsRegistered(structs: Groups.Index<Field>, name: string, fields: seq<Field>)
    requires Groups.Valid(structs)
    ensures Groups.Get(AddFields(structs, name, fields), name) == Groups.Get(structs, name) + RegisteredFields(fields)
    ensures forall k :: k != name ==> Groups.Get(AddFields(structs, name, fields), k) == Groups.Get(structs, k)
    decreases |fields|
  {
    if |fields| > 0 {
      AddFieldsAppendsRegistered(structs, name, fields[..|fields| - 1]);
    }
  }

  /** The spec loop appends, under every name, the registered fields of the structs with that name. */
  lemma {:induction false} AddSpecsAppendsFields(structs: Groups.Index<Field>, specs: seq<Spec>)
    requires Groups.Valid(structs)
    ensures forall s :: Groups.Get(AddSpecs(structs, specs), s) == Groups.Get(structs, s) + SpecFields(specs, s)
    decreases |specs|
  {
    if |specs| > 0 {
      var init := specs[..|specs| - 1];
      AddSpecsAppendsFields(structs, init);
      var before := AddSpecs(structs, init);
      match specs[|specs| - 1] {
        case StructSpec(name, fields) =>
          AddFieldsAppendsRegistered(before, name, fields);
        case _ =>
      }
    }
  }

  /** A failed pass fails on a prefix too, and a successful pass extends the prefix's result. */
  lemma SelectStep(decls: seq<Decl>)
    requires |decls| > 0
    ensures Select(decls).Success? ==> Select(decls[..|decls| - 1]).Success?
    ensures Select(decls[..|decls| - 1]).Success? ==>
              Select(decls) == AddDecl(Select(decls[..|decls| - 1]).value, decls[|decls| - 1])
  {
  }

  /**
   Method selection: under every receiver type the table holds exactly the
   API methods declared on a pointer to that type, in declaration order.
   */
  lemma {:induction false} SelectMethodsByReceiver(decls: seq<Decl>)
    requires Select(decls).Success?
    ensures forall t :: Groups.Get(Select(decls).value.methods, t) == ApiMethods(decls, t)
    decreases |decls|
  {
    if |decls| > 0 {
      var init := decls[..|decls| - 1];
      SelectStep(decls);
      SelectMethodsByReceiver(init);
    }
  }

  /**
   Field selection: under every struct name the table holds exactly the
   registered fields of the structs with that name, in declaration order.
   */
  lemma {:induction false} SelectFieldsByStruct(decls: seq<Decl>)
    requires Select(decls).Success?
    ensures forall s :: Groups.Get(Select(decls).value.structs, s) == StructFields(decls, s)
    decreases |decls|
  {
    if |decls| > 0 {
      var init := decls[..|decls| - 1];
      SelectStep(decls);
      SelectFieldsByStruct(init);
      var d := decls[|decls| - 1];
      if d.Gen? {
        AddSpecsAppendsFields(Select(init).value.structs, d.specs);
      }
    }
  }

  /** A receiverless API function lies in the prefix or is the last declaration. */
  lemma HasReceiverlessStep(decls: seq<Decl>)
    requires |decls| > 0
    ensures HasReceiverlessApiFunction(decls) <==>
              || HasReceiverlessApiFunction(decls[..|decls| - 1])
              || (AddDecl(EmptyRegistry, decls[|decls| - 1]).Failure?)
  {
    var init := decls[..|decls| - 1];
    if HasReceiverlessApiFunction(decls) {
      var i :| 0 <= i < |decls| && decls[i].Func? && IsApiMethod(decls[i].func) && decls[i].func.recv.NoReceiver?;
      if i < |init| {
        assert init[i] == decls[i];
      }
    }
    if HasReceiverlessApiFunction(init) {
      var i :| 0 <= i < |init| && init[i].Func? && IsApiMethod(init[i].func) && init[i].func.recv.NoReceiver?;
      assert decls[i] == init[i];
    }
  }

  /** Whether one declaration makes the pass fail does not depend on the tables so far. */
  lemma AddDeclFailsAlike(reg: Registry, d: Decl)
    requires Groups.Valid(reg.methods) && Groups.Valid(reg.structs)
    ensures AddDecl(reg, d).Failure? <==> AddDecl(EmptyRegistry, d).Failure?
  {
  }

  /** The pass fails exactly when some API function has no receiver. */
  lemma {:induction false} SelectFailsIff(decls: seq<Decl>)
    ensures Select(decls).Failure? <==> HasReceiverlessApiFunction(decls)
    decreases |decls|
  {
    if |decls| > 0 {
      var init := decls[..|decls| - 1];
      SelectStep(decls);
      SelectFailsIff(init);
      HasReceiverlessStep(decls);
      if Select(init).Success? {
        AddDeclFailsAlike(Select(init).value, decls[|decls| - 1]);
      }
    }
  }

  /** Every method in `ApiMethods(decls, t)` is an API method on a pointer to `t`. */
  lemma {:induction false} ApiMethodsQualify(decls: seq<Decl>, t: string)
    ensures forall m :: m in ApiMethods(decls, t) ==> IsApiMethod(m) && m.recv == PointerReceiver(t)
    decreases |decls|
  {
    if |decls| > 0 {
      ApiMethodsQualify(decls[..|decls| - 1], t);
    }
  }

  lemma {:induction false} RegisteredFieldsQualify(fields: seq<Field>)
    ensures forall f :: f in RegisteredFields(fields) ==> Registered(f)
    decreases |fields|
  {
    if |fields| > 0 {
      RegisteredFieldsQualify(fields[..|fields| - 1]);
    }
  }

  lemma {:induction false} SpecFieldsQualify(specs: seq<Spec>, s: string)
    ensures forall f :: f in SpecFields(specs, s) ==> Registered(f)
    decreases |specs|
  {
    if |specs| > 0 {
      SpecFieldsQualify(specs[..|specs| - 1], s);
      var sp := specs[|specs| - 1];
      if sp.StructSpec? {
        RegisteredFieldsQualify(sp.fields);
      }
    }
  }

  lemma {:induction false} StructFieldsQualify(decls: seq<Decl>, s: string)
    ensures forall f :: f in StructFields(decls, s) ==> Registered(f)
    decreases |decls|
  {
    if |decls| > 0 {
      StructFieldsQualify(decls[..|decls| - 1], s);
      var d := decls[|decls| - 1];
      if d.Gen? {
        SpecFieldsQualify(d.specs, s);
      }
    }
  }

  /** Every selected method is an API method on a pointer to its key. */
  lemma SelectedMethodQualifies(decls: seq<Decl>, t: string, m: FuncDecl)
    requires Select(decls).Success?
    requires m in Groups.Get(Select(decls).value.methods, t)
    ensures IsApiMethod(m) && m.recv == PointerReceiver(t)
  {
    SelectMethodsByReceiver(decls);
    ApiMethodsQualify(decls, t);
  }

  /** Every selected field is registered. */
  lemma SelectedFieldQualifies(decls: seq<Decl>, s: string, f: Field)
    requires Select(decls).Success?
    requires f in Groups.Get(Select(decls).value.structs, s)
    ensures Registered(f)
  {
    SelectFieldsByStruct(decls);
    StructFieldsQualify(decls, s);
  }

  /**
   What the emitter may rely on: every selected method is an API method on a
   pointer to its key (so it has a doc comment), and every selected field is
   registered (so it has a tag, is not excluded, and has a validator or json key).
   */
  lemma SelectWellFormed(decls: seq<Decl>)
    requires Select(decls).Success?
    ensures WellFormed(Select(decls).value)
  {
    var reg := Select(decls).value;
    forall t, m | m in Groups.Get(reg.methods, t)
      ensures m.doc.Some?
    {
      SelectedMethodQualifies(decls, t, m);
    }
    forall s, f | f in Groups.Get(reg.structs, s)
      ensures f.tag.Some?
    {
      SelectedFieldQualifies(decls, s, f);
    }
  }

  /**
   Receiver order is fixed by declaration order: the receiver types found in
   a prefix of the declarations come first, in the same order, in the result
   for the whole file.
   */
  lemma {:induction false} ReceiverOrderStable(decls: seq<Decl>, n: nat)
    requires n <= |decls|
    requires Select(decls).Success?
    ensures Select(decls[..n]).Success?
    ensures Groups.Keys(Select(decls[..n]).value.methods) <= Groups.Keys(Select(decls).value.methods)
    decreases |decls|
  {
    if n < |decls| {
      var init := decls[..|decls| - 1];
      SelectStep(decls);
      assert init[..n] == decls[..n];
      ReceiverOrderStable(init, n);
    } else {
      assert decls[..n] == decls;
    }
  }
}

=== FILE: text.dfy ===
/**
 String scanning used by the generator: literal search (the regexps of the
 generator are literal prefixes followed by a character class), prefix tests,
 `regexp.Split` with a one-character pattern, `strings.Join` and
 `strings.ToLower`.
 */
module Text {
  import opened Wrappers

  /** `p` occurs in `s` starting at index `i`. */
  predicate OccursAt(s: string, p: string, i: nat) {
    i + |p| <= |s| && s[i..i + |p|] == p
  }

  /** The leftmost occurrence of `p` in `s` at or after index `i`. */
  function FindFrom(s: string, p: string, i: nat): (r: Option<nat>)
    ensures r.Some? ==> i <= r.value && OccursAt(s, p, r.value)
    ensures r.Some? ==> forall j :: i <= j < r.value ==> !OccursAt(s, p, j)
    ensures r.None? ==> forall j :: i <= j ==> !OccursAt(s, p, j)
    decreases |s| - i
  {
    if i + |p| > |s| then None
    else if s[i..i + |p|] == p then Some(i)
    else FindFrom(s, p, i + 1)
  }

  /** The leftmost occurrence of `p` in `s` (what a literal regexp match finds). */
  function Find(s: string, p: string): Option<nat> {
    FindFrom(s, p, 0)
  }

  /** `strings.Contains`, and `regexp.MatchString` of a literal pattern. */
  predicate Contains(s: string, p: string) {
    Find(s, p).Some?
  }

  /** `strings.HasPrefix`. */
  predicate HasPrefix(s: string, p: string) {
    |p| <= |s| && s[..|p|] == p
  }

  /** Any occurrence at index `i` with none before it is the one `Find` reports. */
  lemma FindLeftmost(s: string, p: string, i: nat)
    requires OccursAt(s, p, i)
    requires forall j :: 0 <= j < i ==> !OccursAt(s, p, j)
    ensures Find(s, p) == Some(i)
  {
  }

  /** A found occurrence lies inside the text. */
  lemma FindBound(s: string, p: string, i: nat)
    requires Find(s, p) == Some(i)
    ensures i + |p| <= |s|
  {
  }

  /** `Contains` holds exactly when some occurrence exists. */
  lemma ContainsIff(s: string, p: string)
    ensures Contains(s, p) <==> exists i: nat :: OccursAt(s, p, i)
  {
    if Contains(s, p) {
      assert OccursAt(s, p, Find(s, p).value);
    }
  }

  /** An occurrence that starts before the separator lies wholly inside `a`. */
  lemma OccursBeforeSeparator(a: string, c: char, b: string, p: string, j: nat)
    requires c !in p && j <= |a|
    ensures OccursAt(a + [c] + b, p, j) <==> OccursAt(a, p, j)
  {
    var s := a + [c] + b;
    if |a| < j + |p| <= |s| {
      assert s[j..j + |p|][|a| - j] == c;
    }
    if j + |p| <= |a| {
      assert s[j..j + |p|] == a[j..j + |p|];
    }
  }

  /** An occurrence that starts after the separator lies wholly inside `b`. */
  lemma OccursAfterSeparator(a: string, c: char, b: string, p: string, k: nat)
    ensures OccursAt(a + [c] + b, p, |a| + 1 + k) <==> OccursAt(b, p, k)
  {
    var s := a + [c] + b;
    assert s[|a| + 1..] == b;
    if k + |p| <= |b| {
      assert s[|a| + 1 + k..|a| + 1 + k + |p|] == b[k..k + |p|];
    }
  }

  /** Without occurrences in `a` nor in `b` before `k`, there is none in `a + [c] + b` before `|a| + 1 + k`. */
  lemma NoneBeforeAcross(a: string, c: char, b: string, p: string, k: nat)
    requires c !in p && Find(a, p).None?
    requires forall j: nat :: j < k ==> !OccursAt(b, p, j)
    ensures forall j: nat :: j < |a| + 1 + k ==> !OccursAt(a + [c] + b, p, j)
  {
    forall j: nat | j < |a| + 1 + k
      ensures !OccursAt(a + [c] + b, p, j)
    {
      if j <= |a| {
        OccursBeforeSeparator(a, c, b, p, j);
      } else {
        OccursAfterSeparator(a, c, b, p, j - |a| - 1);
      }
    }
  }

  /** The leftmost occurrence in `a` stays the leftmost after appending the separator and `b`. */
  lemma FindAcrossInFirst(a: string, c: char, b: string, p: string)
    requires c !in p && Find(a, p).Some?
    ensures Find(a + [c] + b, p) == Find(a, p)
  {
    var i := Find(a, p).value;
    OccursBeforeSeparator(a, c, b, p, i);
    forall j: nat | j < i
      ensures !OccursAt(a + [c] + b, p, j)
    {
      OccursBeforeSeparator(a, c, b, p, j);
    }
    FindLeftmost(a + [c] + b, p, i);
  }

  /** Without an occurrence in `a`, the leftmost one in `b` is found, shifted past the separator. */
  lemma FindAcrossInSecond(a: string, c: char, b: string, p: string)
    requires c !in p && Find(a, p).None? && Find(b, p).Some?
    ensures Find(a + [c] + b, p) == Some(|a| + 1 + Find(b, p).value)
  {
    var k := Find(b, p).value;
    NoneBeforeAcross(a, c, b, p, k);
    OccursAfterSeparator(a, c, b, p, k);
    FindLeftmost(a + [c] + b, p, |a| + 1 + k);
  }

  /** With an occurrence in neither part there is none in the whole. */
  lemma FindAcrossNowhere(a: string, c: char, b: string, p: string)
    requires c !in p && Find(a, p).None? && Find(b, p).None?
    ensures Find(a + [c] + b, p).None?
  {
    NoneBeforeAcross(a, c, b, p, |b| + 1);
  }

  /**
   Occurrences of a pattern without the separator `c` never straddle the
   separator, so the leftmost occurrence in `a + [c] + b` is the one in `a`,
   or else the one in `b` shifted past the separator.
   */
  lemma FindAcrossSeparator(a: string, c: char, b: string, p: string)
    requires c !in p
    ensures Find(a + [c] + b, p) ==
              if Find(a, p).Some? then Find(a, p)
              else match Find(b, p)
                case None => None
                case Some(j) => Some(|a| + 1 + j)
  {
    if Find(a, p).Some? {
      FindAcrossInFirst(a, c, b, p);
    } else if Find(b, p).Some? {
      FindAcrossInSecond(a, c, b, p);
    } else {
      FindAcrossNowhere(a, c, b, p);
    }
  }

  /** The longest prefix of `s` without the character `c` (a regexp `[^c]*`). */
  function PrefixWithout(s: string, c: char): (r: string)
    ensures r <= s && c !in r
    ensures |r| < |s| ==> s[|r|] == c
  {
    if |s| == 0 || s[0] == c then "" else [s[0]] + PrefixWithout(s[1..], c)
  }

  /** A prefix scan stops at the first separator, whatever follows it. */
  lemma {:induction false} PrefixWithoutBeforeSeparator(w: string, c: char, rest: string)
    requires c !in w
    ensures PrefixWithout(w + [c] + rest, c) == w
  {
    if |w| > 0 {
      assert (w + [c] + rest)[1..] == w[1..] + [c] + rest;
      PrefixWithoutBeforeSeparator(w[1..], c, rest);
    }
  }

  /** A prefix scan never reads past the first separator, wherever that lies. */
  lemma {:induction false} PrefixWithoutStopsAtSeparator(x: string, c: char, rest: string)
    ensures PrefixWithout(x + [c] + rest, c) == PrefixWithout(x, c)
  {
    if |x| > 0 && x[0] != c {
      assert (x + [c] + rest)[1..] == x[1..] + [c] + rest;
      PrefixWithoutStopsAtSeparator(x[1..], c, rest);
    }
  }

  /** A prefix scan over text without the separator takes all of it. */
  lemma {:induction false} PrefixWithoutAll(w: string, c: char)
    requires c !in w
    ensures PrefixWithout(w, c) == w
  {
    if |w| > 0 {
      PrefixWithoutAll(w[1..], c);
    }
  }

  /**
   `regexp.MustCompile(c).Split(s, -1)` for a one-character pattern `c`: the
   pieces between separators, always at least one (`[""]` for `""`).
   */
  function Split(s: string, c: char): (parts: seq<string>)
    ensures |parts| >= 1
    decreases |s|
  {
    if |s| == 0 then [""]
    else
      var rest := Split(s[1..], c);
      if s[0] == c then [""] + rest else [[s[0]] + rest[0]] + rest[1..]
  }

  /** `strings.Join`. */
  function Join(parts: seq<string>, sep: string): string {
    if |parts| == 0 then ""
    else if |parts| == 1 then parts[0]
    else parts[0] + sep + Join(parts[1..], sep)
  }

  /** No piece produced by `Split` contains the separator. */
  lemma {:induction false} SplitPiecesFree(s: string, c: char)
    ensures forall i :: 0 <= i < |Split(s, c)| ==> c !in Split(s, c)[i]
  {
    if |s| > 0 {
      SplitPiecesFree(s[1..], c);
    }
  }

  /** Joining the pieces of `Split` with the separator gives back the text. */
  lemma {:induction false} JoinSplit(s: string, c: char)
    ensures Join(Split(s, c), [c]) == s
  {
    if |s| > 0 {
      var rest := Split(s[1..], c);
      JoinSplit(s[1..], c);
      if s[0] == c {
        assert Split(s, c) == [""] + rest;
        assert Join(Split(s, c), [c]) == "" + [c] + Join(rest, [c]);
      } else {
        var parts := Split(s, c);
        assert parts == [[s[0]] + rest[0]] + rest[1..];
        if |rest| == 1 {
          assert Join(parts, [c]) == [s[0]] + rest[0];
        } else {
          assert Join(rest, [c]) == rest[0] + [c] + Join(rest[1..], [c]);
          assert parts[1..] == rest[1..];
          assert Join(parts, [c]) == ([s[0]] + rest[0]) + [c] + Join(rest[1..], [c]);
        }
        assert s == [s[0]] + s[1..];
      }
    }
  }

  /** Text without the separator is a single piece. */
  lemma {:induction false} SplitWithoutSeparator(w: string, c: char)
    requires c !in w
    ensures Split(w, c) == [w]
  {
    if |w| > 0 {
      SplitWithoutSeparator(w[1..], c);
      assert [w[0]] + w[1..] == w;
    }
  }

  /** `Split` unfolded once on a text that starts with the separator. */
  lemma SplitConsSeparator(s: string, c: char)
    requires |s| > 0 && s[0] == c
    ensures Split(s, c) == [""] + Split(s[1..], c)
  {
  }

  /** `Split` unfolded once on a text that starts with another character. */
  lemma SplitConsOther(s: string, c: char)
    requires |s| > 0 && s[0] != c
    ensures Split(s, c) == [[s[0]] + Split(s[1..], c)[0]] + Split(s[1..], c)[1..]
  {
  }

  lemma ConcatAssoc<T>(x: seq<T>, y: seq<T>, z: seq<T>)
    ensures x + (y + z) == (x + y) + z
  {
  }

  /** Dropping past the separator of `a + [c] + b` and `k` more elements leaves `b[k..]`. */
  lemma DropPastSeparator<T>(a: seq<T>, c: T, b: seq<T>, k: nat)
    requires k <= |b|
    ensures (a + [c] + b)[|a| + 1 + k..] == b[k..]
  {
    assert (a + [c] + b)[|a| + 1..] == b;
  }

  /** Dropping `k` elements of `a + [c] + b`, with `k` inside `a`, leaves the rest of `a`, `c` and `b`. */
  lemma DropBeforeSeparator<T>(a: seq<T>, c: T, b: seq<T>, k: nat)
    requires k <= |a|
    ensures (a + [c] + b)[k..] == a[k..] + [c] + b
  {
  }

  /** A slice of a slice is a slice of the whole. */
  lemma SliceOfSlice<T>(s: seq<T>, lo: nat, hi: nat, x: nat, y: nat)
    requires lo <= hi <= |s| && x <= y <= hi - lo
    ensures s[lo..hi][x..y] == s[lo + x..lo + y]
  {
    forall k | 0 <= k < y - x
      ensures s[lo..hi][x..y][k] == s[lo + x..lo + y][k]
    {
    }
  }

  /** A sequence that starts and ends with `q` is `q`, its inside, and `q`. */
  lemma Bracketed<T>(m: seq<T>, q: T)
    requires |m| >= 2 && m[0] == q && m[|m| - 1] == q
    ensures m == [q] + m[1..|m| - 1] + [q]
  {
  }

  /** Replacing the head of `x + y` (with `x` non-empty) replaces the head of `x`. */
  lemma ConsConcat<T>(x: seq<T>, y: seq<T>, h: T)
    requires |x| > 0
    ensures [h] + (x + y)[1..] == ([h] + x[1..]) + y
  {
    assert (x + y)[1..] == x[1..] + y;
  }

  /**
   The inductive step of `SplitAtSeparator` when `a` starts with the separator:
   `s` is `a + [c] + b`, and the claim already holds for the tails.
   */
  lemma SplitAtSeparatorStepSeparator(s: string, a: string, c: char, b: string)
    requires |a| > 0 && a[0] == c && |s| > 0 && s[0] == c
    requires Split(s[1..], c) == Split(a[1..], c) + Split(b, c)
    ensures Split(s, c) == Split(a, c) + Split(b, c)
  {
    SplitConsSeparator(s, c);
    SplitConsSeparator(a, c);
    ConcatAssoc([""], Split(a[1..], c), Split(b, c));
  }

  /**
   The inductive step of `SplitAtSeparator` when `a` starts with another
   character: `s` is `a + [c] + b`, and the claim already holds for the tails.
   */
  lemma SplitAtSeparatorStepOther(s: string, a: string, c: char, b: string)
    requires |a| > 0 && a[0] != c && |s| > 0 && s[0] == a[0]
    requires Split(s[1..], c) == Split(a[1..], c) + Split(b, c)
    ensures Split(s, c) == Split(a, c) + Split(b, c)
  {
    var ra := Split(a[1..], c);
    var rb := Split(b, c);
    SplitConsOther(s, c);
    SplitConsOther(a, c);
    ConsConcat(ra, rb, [a[0]] + ra[0]);
  }

  /** Splitting distributes over a separator: `Split(a + c + b) == Split(a) + Split(b)`. */
  lemma {:induction false} SplitAtSeparator(a: string, c: char, b: string)
    ensures Split(a + [c] + b, c) == Split(a, c) + Split(b, c)
    decreases |a|
  {
    var s := a + [c] + b;
    if |a| == 0 {
      assert s[0] == c && s[1..] == b;
      SplitConsSeparator(s, c);
    } else {
      SplitAtSeparator(a[1..], c, b);
      assert s[0] == a[0] && s[1..] == a[1..] + [c] + b;
      if a[0] == c {
        SplitAtSeparatorStepSeparator(s, a, c, b);
      } else {
        SplitAtSeparatorStepOther(s, a, c, b);
      }
    }
  }

  /** The first piece of `Split` is the text up to the first separator. */
  lemma {:induction false} SplitFirstPiece(s: string, c: char)
    ensures Split(s, c)[0] == PrefixWithout(s, c)
  {
    if |s| > 0 && s[0] != c {
      SplitFirstPiece(s[1..], c);
    }
  }

  /** `Split` undoes `Join` when no piece holds the separator. */
  lemma {:induction false} SplitJoin(parts: seq<string>, c: char)
    requires |parts| >= 1
    requires forall i :: 0 <= i < |parts| ==> c !in parts[i]
    ensures Split(Join(parts, [c]), c) == parts
  {
    if |parts| == 1 {
      SplitWithoutSeparator(parts[0], c);
    } else {
      SplitJoin(parts[1..], c);
      SplitAtSeparator(parts[0], c, Join(parts[1..], [c]));
      SplitWithoutSeparator(parts[0], c);
      assert [parts[0]] + parts[1..] == parts;
    }
  }

  predicate IsUpper(ch: char) {
    'A' <= ch <= 'Z'
  }

  /** Lower-cases an ASCII capital and leaves every other character alone. */
  function LowerChar(ch: char): char {
    if IsUpper(ch) then (ch as int + ('a' as int - 'A' as int)) as char else ch
  }

  /** `strings.ToLower`, restricted to ASCII letters. */
  function ToLower(s: string): (r: string)
    ensures |r| == |s|
    ensures forall i :: 0 <= i < |r| ==> !IsUpper(r[i])
    ensures forall i :: 0 <= i < |r| ==> r[i] == s[i] || (IsUpper(s[i]) && r[i] as int == s[i] as int + 32)
  {
    seq(|s|, i requires 0 <= i < |s| => LowerChar(s[i]))
  }

  /** The longest prefix of `s` made of capitals (a regexp `[A-Z]*`). */
  function UpperRun(s: string): (r: string)
    ensures r <= s
    ensures forall i :: 0 <= i < |r| ==> IsUpper(r[i])
    ensures |r| < |s| ==> !IsUpper(s[|r|])
  {
    if |s| == 0 || !IsUpper(s[0]) then "" else [s[0]] + UpperRun(s[1..])
  }

  /** A run of capitals followed by a non-capital is exactly what `UpperRun` reads. */
  lemma {:induction false} UpperRunStops(w: string, rest: string)
    requires forall i :: 0 <= i < |w| ==> IsUpper(w[i])
    requires |rest| > 0 && !IsUpper(rest[0])
    ensures UpperRun(w + rest) == w
  {
    if |w| > 0 {
      assert (w + rest)[1..] == w[1..] + rest;
      UpperRunStops(w[1..], rest);
    } else {
      assert w + rest == rest;
    }
  }
}

=== FILE: wrappers.dfy ===
/**
 The two outcome types of the generator model. Both work with Dafny's `:-`
 operator, so a step that can abort is written like a Go call followed by an
 early return, and a Go panic travels up to the whole run as a `Failure`.
 */
module Wrappers {

  /** A lookup that may find nothing: a tag key that is not there, a rule the tag does not mention. */
  datatype Option<+T> = None | Some(value: T) {

    /** `:-` stops at a missing value. */
    predicate IsFailure() {
      None?
    }

    function PropagateFailure<U>(): Option<U>
      requires None?
    {
      None
    }

    function Extract(): T
      requires Some?
    {
      value
    }

    /** What was found, else the fallback (the empty string for `StructTag.Get`). */
    function GetOr(default: T): T {
      match this
      case Some(v) => v
      case None => default
    }
  }

  /** A generation step either produces its output or names the panic that ends the run. */
  datatype Result<+R, +E> = Success(value: R) | Failure(error: E) {

    /** `:-` stops at the first panic and passes its error on unchanged. */
    predicate IsFailure() {
      Failure?
    }

    function PropagateFailure<U>(): Result<U, E>
      requires Failure?
    {
      Failure(error)
    }

    function Extract(): R
      requires Success?
    {
      value
    }
  }

  /**
   Applies `f` to each element in order, as a loop that stops at the first
   failure: the values of all steps, or the error of the first failing step.
   */
  function MapAll<T, U, E>(xs: seq<T>, f: T --> Result<U, E>): (r: Result<seq<U>, E>)
    requires forall i :: 0 <= i < |xs| ==> f.requires(xs[i])
    ensures r.Success? <==> forall i :: 0 <= i < |xs| ==> f(xs[i]).Success?
    ensures r.Success? ==> |r.value| == |xs| && forall i :: 0 <= i < |xs| ==> f(xs[i]) == Success(r.value[i])
    ensures r.Failure? ==> exists i :: 0 <= i < |xs| && f(xs[i]) == Failure(r.error)
                                       && forall j :: 0 <= j < i ==> f(xs[j]).Success?
    decreases |xs|
  {
    if |xs| == 0 then Success([])
    else
      match f(xs[0]) {
        case Failure(e) => Failure(e)
        case Success(y) =>
          var rest := MapAll(xs[1..], f);
          assert forall i :: 1 <= i < |xs| ==> xs[i] == xs[1..][i - 1];
          match rest {
            case Failure(e) =>
              assert exists i :: 0 <= i < |xs| && f(xs[i]) == Failure(e) && forall j :: 0 <= j < i ==> f(xs[j]).Success? by {
                var k :| 0 <= k < |xs[1..]| && f(xs[1..][k]) == Failure(e)
                         && forall j :: 0 <= j < k ==> f(xs[1..][j]).Success?;
                assert f(xs[k + 1]) == Failure(e);
              }
              Failure(e)
            case Success(ys) => Success([y] + ys)
          }
      }
  }
}
